=== FILE: README.md ===
# Onboarding bot core, modelled in Dafny

`bot.py` runs a Telegram bot that onboards review applicants. Its logic has four parts, and this project models all four:

- **The link allocator.** `get_next_test_link` hands out test links round-robin. It uses a single cursor, `link_index`, kept in the bot-wide data.
- **The onboarding state machine.** `dispatcher` routes each inbound message by the sender's stored `state`. The possible states are `new_user`, `awaiting_screenshot`, `awaiting_verification`, `expired` and any other string. Messages go to one of these handlers:
  - `handle_new_user` assigns a link, records state, name and link, and arms two one-shot timers;
  - `handle_photo` advances the user and cancels both timers by name;
  - `handle_text_message` answers with the language model, or with the fixed expiry notice.
- **The timers.** Two timer callbacks can fire:
  - `reminder_job` sends a reminder and never touches the state;
  - `expiration_job` moves a user to `expired`, but only while the user still awaits the screenshot.
- **The marker rule on the model's replies.** If a reply contains `[SEND_GUIDE_PDF]`, every occurrence is removed and the text is stripped of surrounding whitespace. The guide document is then requested. Otherwise the reply goes out verbatim.

## Modules

| file | module | contents |
|---|---|---|
| `wrappers.dfy` | `Wrappers` | `Option` |
| `decimal.dfy` | `Decimal` | Python's `str()` of a non-negative integer, which gives the job names their digits |
| `jobs.dfy` | `Jobs` | jobs, job names `reminder_<id>` and `expire_<id>`, and the queue operations (count, cancel by name, fire the first job of a name) |
| `links.dfy` | `LinkAllocator` | `get_next_test_link`, with Python list indexing (negative indices, `IndexError`) |
| `marker.dfy` | `GuideMarker` | `in`, `str.replace(marker, "")`, `str.strip()` and the delivery rule |
| `onboarding.dfy` | `Onboarding` | the store, the handlers, `dispatcher`, the timer callbacks, `Step`, `Run` and the invariant `Valid` |
| `onboarding_props.dfy` | `OnboardingProperties` | the transition edges, the stale-timer guard, the footprint of each event, the absorbing states, preservation of `Valid` and a complete scenario |

The store holds three things:
- the per-user records (`state`, `first_name` and `assigned_link`, each possibly absent);
- the cursor;
- the pending jobs, in scheduling order.

An event is an inbound non-command message (photo, non-empty text, or anything else) or a timer firing for a user. Bot commands never reach the core (bot.py:267). `Step` returns the new store and the list of outward actions. The actions are:
- replies;
- cancellations and schedulings;
- operator notification and forwarding;
- the request to the language model;
- the document send.

The language model is a function parameter `ai` from the request (state, name, link and message) to the reply text.

## Model

| member | source | states |
|---|---|---|
| LinkAllocator.Allocate | bot.py:55-65 | The link handed out is the list entry at the cursor, with an absent cursor read as 0 and Python's negative-index and `IndexError` rules. On success the cursor moves to `(c + 1) % len`. When the lookup raises, the cursor keeps the value it was read with (0 when it was absent). |
| LinkAllocator.PyIndex | bot.py:61 | Python's `xs[i]`: it succeeds exactly for `-len <= i < len`, gives `xs[i]` for a non-negative index and `xs[len + i]` for a negative one, and otherwise models the `IndexError`. |
| LinkAllocator.AllocateInRange | bot.py:57-64 | With a non-empty list and a cursor that is absent or in `[0, len)`, allocation succeeds and returns the link at the cursor (the first link when absent). The cursor it leaves is present and in range. |
| LinkAllocator.DealRotates | bot.py:60-64 | The `i`-th of `k` consecutive allocations from cursor `c` returns link `(c + i) % len`, and the cursor ends at `(c + k) % len`. |
| LinkAllocator.FullRound | bot.py:57-64 | `len` consecutive allocations from any in-range cursor return the list rotated to start at the cursor. That is a permutation of the list, so each link is handed out exactly once. The cursor ends where it started. |
| Decimal.Show | bot.py:167-168 | The decimal rendering of a user id used in job names is non-empty and all digits. It has no leading zero, and 0 renders as `0`. |
| Decimal.ParseShow | bot.py:167-168 | Reading the rendering back gives the id, so the rendering is a faithful encoding. |
| Decimal.ShowInjective | bot.py:167-168 | Two ids render alike exactly when they are equal. |
| Jobs.JobName | bot.py:167-168 | The `reminder_<id>` and `expire_<id>` job names. JobNameInjective states that a name determines both kind and id. |
| Jobs.JobNameInjective | bot.py:167-168 | `reminder_<id>` and `expire_<id>` names are equal exactly when kind and id are. So a lookup by one user's name never meets another user's job, or the other kind of job. |
| Jobs.Count | bot.py:181-186 | The number of pending jobs with a name is positive exactly when some pending job carries that name. |
| Jobs.RemoveNamed | bot.py:181-186 | Cancelling every job whose name is in a set keeps exactly the jobs with other names. For every name, the count afterwards is 0 for a cancelled name and unchanged for any other. |
| Jobs.FirstNamed | bot.py:116-131 | The job a firing timer runs is a pending job with that name, and no job of that name is scheduled before it. There is none exactly when no job of that name is pending. |
| Jobs.RemoveFirst | bot.py:116-131 | A job that fires leaves the queue: the count of its name drops by one, every other count is unchanged, and nothing new appears. |
| Jobs.RemoveFirstDropsFired | bot.py:116-131 | The job removed when a timer fires is the one that ran, the first pending job of that name (`FirstNamed`). Every other job stays. With no job of that name pending, the queue is unchanged. |
| GuideMarker.IsSpace | bot.py:216 | The characters Python's `str.isspace()` accepts, which `str.strip()` removes. Strip and StripUnique state the stripping in its terms. |
| GuideMarker.Strip | bot.py:216 | The result is a slice of the input. Only whitespace, as `str.isspace()` defines it, lies around the slice, and the slice is empty or starts and ends with a non-whitespace character. |
| GuideMarker.StripUnique | bot.py:216 | Any two results meeting the stripping condition for the same input are equal, so the condition pins down `str.strip()` exactly. |
| GuideMarker.StripIdempotent | bot.py:216 | Stripping twice is stripping once. |
| GuideMarker.RemoveMarkersIdentity | bot.py:214-216 | Removing markers changes the text exactly when the marker occurs in it. |
| GuideMarker.RemoveMarkersShrinks | bot.py:214-216 | Removal never lengthens the text, and it strictly shortens any text containing the marker. |
| GuideMarker.Split | bot.py:214-216 | Every text splits into at least one marker-free piece, and the pieces joined with the marker give back the text. |
| GuideMarker.RemoveMarkersIsConcatOfSplit | bot.py:214-216 | Removing markers equals concatenating the marker-free pieces the text splits into, which is the left-to-right, non-overlapping semantics of `str.replace`. |
| GuideMarker.ContainsMarker | bot.py:214 | Python's `in` on strings: some index holds the marker. RemoveMarkersIdentity and Deliver state what depends on it. |
| GuideMarker.RemoveMarkers | bot.py:216 | `str.replace(marker, "")`, one left-to-right pass. Its behaviour is stated by RemoveMarkersIdentity, RemoveMarkersShrinks, RemoveMarkersJoin and RemoveMarkersIsConcatOfSplit. |
| GuideMarker.RemoveMarkersJoin | bot.py:216 | For any marker-free pieces, removing markers from the pieces joined with the marker gives the pieces concatenated. This pins down `str.replace(marker, "")` on every text, since Split decomposes every text that way. |
| GuideMarker.Deliver | bot.py:214-225 | The guide is requested exactly when the reply contains the marker. Without the marker, the reply is sent verbatim. With it, the sent text is the marker-free reply stripped of surrounding whitespace. |
| Onboarding.ParsePhase | bot.py:229-250 | Reading a stored state string gives a phase whose name is that string. The phase is "unrecognised" exactly when the string is none of the four known states. |
| Onboarding.PhaseOf | bot.py:229 | The user's state read with `'new_user'` as the default, then classified. ParsePhase states the classification; NewUserIsOnboarded covers the absent state. |
| Onboarding.HasText | bot.py:240-247 | Python's truth test on the message text: present and non-empty. AwaitingScreenshotNonPhoto and TerminalStatesIgnoreMessages state both outcomes of the test. |
| Onboarding.RequestFor | bot.py:72-74 | The request to the language model, with the defaults `'new_user'`, `'there'` and `'ERROR: No link assigned'` for absent fields. TextIsAnswered states that every text outside `expired` is sent with it. |
| Onboarding.HandleNewUser | bot.py:136-168 | `handle_new_user`. Its behaviour is stated by NewUserIsOnboarded and NewUserWithBadCursor, and its effect on the invariant by OnboardingArmsExactlyOneOfEach. |
| Onboarding.HandlePhoto | bot.py:170-198 | `handle_photo`. PhotoAdvancesToVerification states its store change and its exact action list: both cancellations by name, the thanks, then the operator notice and forward only with an operator chat. PhotoSparesOtherUsersJobs states that other users' jobs stay. |
| Onboarding.HandleText | bot.py:200-225 | `handle_text_message`. Its behaviour is stated by TextIsAnswered, AwaitingScreenshotNonPhoto and TerminalStatesIgnoreMessages. |
| Onboarding.Dispatch | bot.py:227-250 | `dispatcher`. Each branch is stated by NewUserIsOnboarded, PhotoAdvancesToVerification, AwaitingScreenshotNonPhoto, AwaitingVerificationTextIsAnswered, TerminalStatesIgnoreMessages and UnrecognisedStateIsSilent. InboundTouchesOnlySender states that it writes no other user. |
| Onboarding.ReminderJob | bot.py:116-122 | `reminder_job`. Its behaviour is stated by ReminderKeepsState and ReminderGreetsByName. |
| Onboarding.ExpirationJob | bot.py:124-131 | `expiration_job`. Its behaviour is stated by ExpirationIsGuarded. |
| Onboarding.Fire | bot.py:116-131 | A timer firing runs the first pending job of its name and takes exactly that job off the queue; every other pending job stays (`RemoveFirst`, with RemoveFirstDropsFired). With none pending nothing happens. This is stated by ReminderKeepsState, ExpirationExpires, StaleExpirationIsNoOp and TerminalStateIsKept. |
| Onboarding.Step | bot.py:116-250 | One event. Its footprint is stated by StepFootprint, and the invariant it keeps by StepPreservesValid. |
| OnboardingProperties.NewUserIsOnboarded | bot.py:136-168 | A user with no stored state, on any non-command message, moves to `awaiting_screenshot` with the first name and the link at the cursor recorded. The cursor advances. The welcome carries that link. Exactly the reminder job (23·3600 s, carrying the name) and the expiration job (24·3600 s) are appended. No other user changes. |
| OnboardingProperties.NewUserWithBadCursor | bot.py:55-61 | When the stored cursor cannot index the list, the lookup raises before anything else: no state, no message, no job. |
| OnboardingProperties.PhotoAdvancesToVerification | bot.py:170-198 | In `awaiting_screenshot`, a photo sets `awaiting_verification` and keeps name and link. It removes every job named after the user's reminder or expiration and keeps every other job. It leaves other users and the cursor alone. Its actions are exactly, in order: cancel the reminder by name, cancel the expiration by name, and thank the user. Then, only when an operator chat is configured, it notifies the operator and forwards the photo. Nothing else is sent. |
| OnboardingProperties.PhotoSparesOtherUsersJobs | bot.py:181-186 | A photo cancels no job of another user, whatever its kind. |
| OnboardingProperties.AwaitingScreenshotNonPhoto | bot.py:200-225 | In `awaiting_screenshot`, a text leaves the store unchanged. The model is asked with state, name and link, and the reply is sent under the marker rule. Any other non-photo message gets the screenshot prompt, also with the store unchanged. |
| OnboardingProperties.TextIsAnswered | bot.py:205-225 | Outside `expired`, a text is put to the language model, and its reply goes out under the marker rule. The store is not written. |
| OnboardingProperties.TerminalStatesIgnoreMessages | bot.py:205-250 | In `awaiting_verification` or `expired`, no message changes the store. In `expired`, a text gets the expiry notice and the model is not asked. A non-text gets the review-queue notice. |
| OnboardingProperties.AwaitingVerificationTextIsAnswered | bot.py:244-248 | In `awaiting_verification`, a non-empty text is answered by the model. The request carries the user's data and the text, and the reply is delivered under the marker rule: verbatim without the marker; with it, stripped and followed by the guide. The store does not change. |
| OnboardingProperties.UnrecognisedStateIsSilent | bot.py:229-250 | With a stored state outside the four known values, a message changes nothing and produces no action. |
| OnboardingProperties.ReminderKeepsState | bot.py:116-122 | A reminder never changes any user's data or the cursor. If a reminder is pending, it alone leaves the queue (the queue becomes `RemoveFirst` of that name, so every other job stays) and a single message goes to the user. Otherwise nothing happens. |
| OnboardingProperties.ReminderGreetsByName | bot.py:116-122 | In a valid store, a pending reminder sends exactly one message, to the user, greeting them by the first name recorded at onboarding (the name the job's data carries, bot.py:167). |
| OnboardingProperties.ExpirationIsGuarded | bot.py:124-131 | The expiration callback sets `expired` exactly when the user is known and in `awaiting_screenshot`. Every other state is left as it was, and nothing else in the store changes. |
| OnboardingProperties.ExpirationExpires | bot.py:124-131 | The expiry edge, at the level of a whole event. In a valid store, the expiration timer of a user in `awaiting_screenshot` moves the user to `expired` and keeps name and link. It leaves every other user and the cursor alone, takes exactly the fired expiration off the queue (every other job, the user's reminder included, stays), and sends nothing. |
| OnboardingProperties.StaleExpirationIsNoOp | bot.py:124-131 | In a valid store, an expiration for a user no longer awaiting the screenshot changes nothing at all. |
| OnboardingProperties.InboundTouchesOnlySender | bot.py:136-250 | An inbound message changes no other user's record. |
| OnboardingProperties.StepFootprint | bot.py:116-250 | A message writes at most its sender's record. Only a message in `new_user` adds a user, moves the cursor or lengthens the queue. Timers never do. |
| OnboardingProperties.TerminalStateIsKept | bot.py:124-250 | Once a user is in `awaiting_verification` or `expired`, no event of any user moves them out. |
| OnboardingProperties.TerminalStateIsKeptByRuns | bot.py:124-250 | The same holds across any sequence of events. |
| OnboardingProperties.EmptyStoreIsValid | bot.py:57-58 | The empty store satisfies the invariant. |
| OnboardingProperties.StepPreservesValid | bot.py:116-250 | Every event keeps the invariant, for a non-empty link list. Under the invariant, states are only the written ones, and every stored user has a name and a link from the list. The cursor stays in range. Every job belongs to a stored user, is named after its kind and user, and has its kind's delay. A reminder carries the user's recorded first name. Exactly one expiration is pending while the user awaits the screenshot, none otherwise. At most one reminder is pending, and none once the screenshot has arrived. |
| OnboardingProperties.RunPreservesValid | bot.py:116-250 | Any sequence of events from a valid store keeps the invariant. |
| OnboardingProperties.ValidTimers | bot.py:167-186 | In a valid store, the number of pending expirations for a user is 1 in `awaiting_screenshot` and 0 otherwise. No user, in any state, has more than one reminder pending, and a user in `awaiting_verification` has none. |
| OnboardingProperties.OnboardingArmsExactlyOneOfEach | bot.py:145-168 | In a valid store, a first message always succeeds, and afterwards exactly one reminder and one expiration are pending for the user. |
| OnboardingProperties.OnboardingScenario | bot.py:45-250 | From an empty store with the three test links, user 42's first message gets the first link and the photo reaches `awaiting_verification`. The cursor is then 1 and no job remains, and the timers firing afterwards change nothing. |

## Left out

- **Web server.** The FastAPI webhook, health route, startup and shutdown, and the uvicorn launch (bot.py:269-301) are HTTP plumbing. The handler registration at bot.py:267 does decide which events reach the core; see Commands.
- **Commands.** bot.py:267 routes only non-command messages to `dispatcher`. An `Inbound` event stands for a non-command message: a text that starts with a bot command, such as the `/start` a new user's Start button sends, reaches no handler in bot.py, so nothing is onboarded or answered. The model has no such event.
- **Language model client.** The Azure OpenAI client and the completion call (bot.py:37-41, 104-112) are a network call. The model is a total function parameter `ai`, and its reply is whatever `ai` returns.
  - The fallback apology (bot.py:110-112) is not modelled. The triple-quoted string opened at bot.py:77 is not closed before bot.py:151, so as the file stands those lines are string text, not code.
- **The clock.** The real clock and JobQueue are not modelled. Time is absent; a fired timer is an event naming the user.
  - As a consequence, the model does not order the reminder (23 h) before the expiration (24 h). A user who is `expired` may still have a reminder pending in the model, and the invariant allows it.
- **Persistence.** Pickle persistence (bot.py:254) is an in-memory map, and the model writes the same map the handlers read. bot.py does not do that. `expiration_job` reads the data through the persistence layer (bot.py:128-131). In python-telegram-bot, as its documentation describes it, `get_user_data()` returns a copy, and `update_user_data` does not change the `context.user_data` the handlers read. So in the running bot, `dispatcher` does not see the `expired` written at bot.py:130-131 until a restart, and the next flush of that user's data overwrites it. Library behaviour is outside this model. ExpirationJob, ExpirationIsGuarded and ExpirationExpires describe the write as reaching the handlers' map.
- **Telegram I/O.** Sends, forwards, the typing indicator, the message texts and the admin notification's try/except (bot.py:119-121, 164, 188-198, 209) are I/O. They appear only as action values. The chat id is taken to be the user id, as in a private chat.
- **Failed sends.** Every send is assumed to succeed. The invariant clause "exactly one expiration pending while the user awaits the screenshot" depends on this, and so do StepPreservesValid, ValidTimers and OnboardingArmsExactlyOneOfEach.
  - In bot.py, the welcome (bot.py:164) is sent after the state writes (bot.py:146-148) and before both timers are scheduled (bot.py:167-168). If that send raises, the user stays in `awaiting_screenshot` with no timer, a store `Valid` excludes.
  - The cleaned reply (bot.py:217) is sent before the document (bot.py:220). If that reply raises, for example because the text is empty after a bare marker is stripped, no guide is sent. Deliver and TextIsAnswered still emit `SendGuide`.
- **Restarts.** There is no restart event. Only the user data and the cursor persist (bot.py:254); the job queue does not. After a restart, a user in `awaiting_screenshot` has no pending timers. The same invariant clause, and the lemmas named above, depend on the process never restarting.
- **The guide PDF.** Opening the file and the `FileNotFoundError` branch (bot.py:219-223) are filesystem I/O. The request to send the document is the `SendGuide` action.
- **Duplicate-job cancellation.** `handle_photo` calls `schedule_removal` once per matching job. The model emits one `Cancel` per name, and removes every job of that name from the store.
- **test_connessione.py.** It is a connection smoke test with no logic.
- **Steps the code does not have.** bot.py has no email step, no username step and no ledger: a photo moves straight from `awaiting_screenshot` to `awaiting_verification`. The model follows the code.
- OnboardingProperties.ReminderKeepsState: for an arbitrary store it does not say which first name the reminder uses. The stored name is stated for valid stores by ReminderGreetsByName.

=== FILE: decimal.dfy ===
/** Decimal rendering of non-negative integers, as Python's `str()` writes them inside the
    f-strings that name the timer jobs. */
module Decimal {

  function DigitChar(d: nat): (c: char)
    requires d < 10
    ensures '0' <= c <= '9'
    ensures c as int - '0' as int == d
  {
    ('0' as int + d) as char
  }

  predicate IsDigit(c: char) {
    '0' <= c <= '9'
  }

  function DigitValue(c: char): (d: nat)
    requires IsDigit(c)
    ensures d < 10 && DigitChar(d) == c
  {
    c as int - '0' as int
  }

  /** `str(n)` for `n >= 0`: the digits, most significant first, with no leading zero. */
  function Show(n: nat): (s: string)
    ensures |s| >= 1
    ensures forall i :: 0 <= i < |s| ==> IsDigit(s[i])
    ensures s[0] == '0' <==> n == 0
    ensures n == 0 ==> s == "0"
    decreases n
  {
    if n < 10 then [DigitChar(n)] else Show(n / 10) + [DigitChar(n % 10)]
  }

  /** The value of a string of decimal digits (the reading `int()` gives it). */
  function Parse(s: string): nat
    requires forall i :: 0 <= i < |s| ==> IsDigit(s[i])
  {
    if |s| == 0 then 0
    else Parse(s[..|s| - 1]) * 10 + DigitValue(s[|s| - 1])
  }

  /** Reading back a rendered number gives the number. */
  lemma {:induction false} ParseShow(n: nat)
    ensures Parse(Show(n)) == n
    decreases n
  {
    if n >= 10 {
      var s := Show(n);
      assert s == Show(n / 10) + [DigitChar(n % 10)];
      assert s[..|s| - 1] == Show(n / 10);
      ParseShow(n / 10);
    }
  }

  /** Distinct numbers render to distinct strings. */
  lemma ShowInjective(a: nat, b: nat)
    ensures Show(a) == Show(b) <==> a == b
  {
    if Show(a) == Show(b) {
      ParseShow(a);
      ParseShow(b);
    }
  }
}

=== FILE: jobs.dfy ===
/** The one-shot timer jobs of the bot's job queue: their names, and the queue operations the
    handlers use (schedule, look up by name, remove by name, fire). Only the bookkeeping is
    modelled; the clock is not. */
module Jobs {
  import opened Wrappers
  import Decimal

  /** A Telegram user id. Telegram assigns positive ids; the model admits any non-negative one. */
  type UserId = nat

  /** The coroutine a job runs when it fires. */
  datatype Callback = RunReminder | RunExpiration

  /** Delays in seconds from the moment the applicant received the test link. */
  const ReminderDelay: nat := 23 * 3600
  const ExpirationDelay: nat := 24 * 3600

  /** A pending job: its name, its callback, the user it was scheduled for, its delay and its
      `data` payload (the reminder carries the user's first name; the expiration carries none). */
  datatype Job = Job(name: string, callback: Callback, userId: UserId, delay: nat, data: Option<string>)

  function Prefix(c: Callback): string {
    match c
    case RunReminder => "reminder_"
    case RunExpiration => "expire_"
  }

  /** `f"reminder_{user_id}"` and `f"expire_{user_id}"`. */
  function JobName(c: Callback, u: UserId): string {
    Prefix(c) + Decimal.Show(u)
  }

  /** A job name determines both the callback and the user: cancelling by name never touches the
      jobs of another user or of the other kind. */
  lemma JobNameInjective(c1: Callback, u1: UserId, c2: Callback, u2: UserId)
    ensures JobName(c1, u1) == JobName(c2, u2) <==> c1 == c2 && u1 == u2
  {
    if JobName(c1, u1) == JobName(c2, u2) {
      assert JobName(c1, u1)[0] == Prefix(c1)[0];
      assert JobName(c2, u2)[0] == Prefix(c2)[0];
      assert c1 == c2;
      var k := |Prefix(c1)|;
      assert JobName(c1, u1)[k..] == Decimal.Show(u1);
      assert JobName(c2, u2)[k..] == Decimal.Show(u2);
      Decimal.ShowInjective(u1, u2);
    }
  }

  /** The number of pending jobs carrying `name`. */
  function Count(js: seq<Job>, name: string): (n: nat)
    ensures n <= |js|
    ensures n > 0 <==> exists i :: 0 <= i < |js| && js[i].name == name
  {
    if |js| == 0 then 0
    else (if js[0].name == name then 1 else 0) + Count(js[1..], name)
  }

  lemma {:induction false} CountAppend(a: seq<Job>, b: seq<Job>, name: string)
    ensures Count(a + b, name) == Count(a, name) + Count(b, name)
    decreases |a|
  {
    if |a| > 0 {
      assert (a + b)[1..] == a[1..] + b;
      CountAppend(a[1..], b, name);
    } else {
      assert a + b == b;
    }
  }

  /** `get_jobs_by_name(n)` then `schedule_removal()` on each job found, for every `n` in
      `names`: every job so named leaves the queue and every other job stays. */
  function RemoveNamed(js: seq<Job>, names: set<string>): (r: seq<Job>)
    ensures |r| <= |js|
    ensures forall j :: j in r <==> j in js && j.name !in names
    ensures forall n :: Count(r, n) == if n in names then 0 else Count(js, n)
  {
    if |js| == 0 then []
    else if js[0].name in names then RemoveNamed(js[1..], names)
    else [js[0]] + RemoveNamed(js[1..], names)
  }

  /** The job the queue fires next under `name`: the first one scheduled. */
  function FirstNamed(js: seq<Job>, name: string): (r: Option<Job>)
    ensures r.Some? ==> r.value in js && r.value.name == name
    ensures r.Some? ==> exists i :: 0 <= i < |js| && js[i] == r.value && forall k :: 0 <= k < i ==> js[k].name != name
    ensures r.None? <==> Count(js, name) == 0
  {
    if |js| == 0 then None
    else if js[0].name == name then Some(js[0])
    else FirstNamed(js[1..], name)
  }

  /** A one-shot job leaves the queue when it fires. */
  function RemoveFirst(js: seq<Job>, name: string): (r: seq<Job>)
    ensures |r| <= |js|
    ensures forall j :: j in r ==> j in js
    ensures forall n :: Count(r, n) == Count(js, n) - (if n == name && Count(js, name) > 0 then 1 else 0)
  {
    if |js| == 0 then []
    else if js[0].name == name then js[1..]
    else [js[0]] + RemoveFirst(js[1..], name)
  }

  /** The job that leaves is the one that fired, the one `FirstNamed` picks; every other job
      stays. With no job of that name pending the queue is unchanged. */
  lemma {:induction false} RemoveFirstDropsFired(js: seq<Job>, name: string)
    ensures FirstNamed(js, name).Some? ==>
      multiset(RemoveFirst(js, name)) + multiset{FirstNamed(js, name).value} == multiset(js)
    ensures FirstNamed(js, name).None? ==> RemoveFirst(js, name) == js
  {
    if |js| > 0 {
      assert js == [js[0]] + js[1..];
      if js[0].name != name {
        RemoveFirstDropsFired(js[1..], name);
      }
    }
  }
}

=== FILE: links.dfy ===
/** The round-robin allocator of test links. A single cursor, shared by all applicants, lives
    in the bot-wide data under the key `link_index`; it is absent until the first allocation. */
module LinkAllocator {
  import opened Wrappers

  /** Python's `xs[i]`: negative indices count from the end; anything outside
      `-|xs| <= i < |xs|` raises `IndexError`, modelled as `None`. */
  function PyIndex<T>(xs: seq<T>, i: int): (r: Option<T>)
    ensures r.Some? <==> -|xs| <= i < |xs|
    ensures 0 <= i < |xs| ==> r == Some(xs[i])
    ensures -|xs| <= i < 0 ==> r == Some(xs[|xs| + i])
  {
    if 0 <= i < |xs| then Some(xs[i])
    else if -|xs| <= i < 0 then Some(xs[|xs| + i])
    else None
  }

  /** The link handed out (`None` when the lookup raised) and the cursor left behind. */
  datatype Allocation = Allocation(link: Option<string>, cursor: Option<int>)

  /** `get_next_test_link`. An absent cursor is first stored as 0. The link is looked up at the
      cursor and the cursor moves to `(index + 1) % len(links)`; Python's `%` agrees with Dafny's
      for a positive divisor, and the divisor is positive whenever the lookup succeeded. When the
      lookup raises, the cursor keeps the value it was read with. */
  function Allocate(links: seq<string>, cursor: Option<int>): (r: Allocation)
    ensures var c := cursor.GetOr(0);
      && r.link == PyIndex(links, c)
      && (r.link.Some? ==> r.cursor == Some((c + 1) % |links|))
      && (r.link.None? ==> r.cursor == Some(c))
  {
    var c := cursor.GetOr(0);
    match PyIndex(links, c)
    case None => Allocation(None, Some(c))
    case Some(link) => Allocation(Some(link), Some((c + 1) % |links|))
  }

  /** The cursor is absent or indexes the list directly. */
  predicate CursorInRange(links: seq<string>, cursor: Option<int>) {
    cursor.None? || 0 <= cursor.value < |links|
  }

  /** With a non-empty list, an allocation from a cursor in range succeeds, returns the link at the
      cursor (the first link when the cursor is absent) and leaves the cursor in range. */
  lemma AllocateInRange(links: seq<string>, cursor: Option<int>)
    requires |links| > 0
    requires CursorInRange(links, cursor)
    ensures Allocate(links, cursor).link == Some(links[cursor.GetOr(0)])
    ensures CursorInRange(links, Allocate(links, cursor).cursor)
    ensures Allocate(links, cursor).cursor.Some?
  {
  }

  /** The links handed out by `k` consecutive allocations, and the cursor they leave. Stops at
      the first lookup that raises. */
  function Deal(links: seq<string>, cursor: Option<int>, k: nat): (seq<string>, Option<int>)
    decreases k
  {
    if k == 0 then ([], cursor)
    else
      var a := Allocate(links, cursor);
      match a.link
      case None => ([], a.cursor)
      case Some(link) =>
        var rest := Deal(links, a.cursor, k - 1);
        ([link] + rest.0, rest.1)
  }

  /** From cursor `c`, the `i`-th of `k` consecutive allocations hands out the link at
      `(c + i) % |links|`: strict rotation, repeating every `|links|` calls. */
  lemma {:induction false} DealRotates(links: seq<string>, c: int, k: nat)
    requires 0 <= c < |links|
    ensures |Deal(links, Some(c), k).0| == k
    ensures forall i :: 0 <= i < k ==> Deal(links, Some(c), k).0[i] == links[(c + i) % |links|]
    ensures Deal(links, Some(c), k).1 == Some((c + k) % |links|)
    decreases k
  {
    if k > 0 {
      var n := |links|;
      var next := (c + 1) % n;
      DealRotates(links, next, k - 1);
      DealStep(links, c, k);
      var rest := Deal(links, Some(next), k - 1);
      var d := Deal(links, Some(c), k);
      assert d.0 == [links[c]] + rest.0;
      assert d.0[0] == links[(c + 0) % n] by {
        ModUnique(c, 0, c, n);
      }
      forall i | 0 < i < k
        ensures d.0[i] == links[(c + i) % n]
      {
        assert d.0[i] == rest.0[i - 1];
        ModShift(c, i - 1, n);
      }
      ModShift(c, k - 1, n);
    }
  }

  /** One allocation from a cursor in range, then the rest. */
  lemma DealStep(links: seq<string>, c: int, k: nat)
    requires 0 <= c < |links| && k > 0
    ensures var rest := Deal(links, Some((c + 1) % |links|), k - 1);
      Deal(links, Some(c), k) == ([links[c]] + rest.0, rest.1)
  {
    assert Allocate(links, Some(c)) == Allocation(Some(links[c]), Some((c + 1) % |links|));
  }

  lemma ModShift(c: int, j: int, n: int)
    requires n > 0
    ensures ((c + 1) % n + j) % n == (c + 1 + j) % n
  {
    var q := (c + 1) / n;
    var x := (c + 1) % n + j;
    assert c + 1 + j == q * n + x;
    var q1 := x / n;
    var r1 := x % n;
    assert c + 1 + j == (q + q1) * n + r1;
    ModUnique(c + 1 + j, q + q1, r1, n);
  }

  /** Division with remainder is unique. */
  lemma ModUnique(a: int, q: int, r: int, n: int)
    requires n > 0 && 0 <= r < n && a == q * n + r
    ensures a % n == r
  {
    var q0 := a / n;
    var r0 := a % n;
    assert (q - q0) * n == r0 - r;
    if q > q0 {
      MulAtLeast(q - q0, n);
    } else if q < q0 {
      MulAtLeast(q0 - q, n);
    }
  }

  lemma {:induction false} MulAtLeast(x: int, n: int)
    requires x >= 1 && n > 0
    ensures x * n >= n
    decreases x
  {
    if x > 1 {
      MulAtLeast(x - 1, n);
      assert x * n == (x - 1) * n + n;
    }
  }

  /** `|links|` allocations from any cursor in range hand out every link exactly once, in list
      order starting at the cursor, and leave the cursor where it started. An absent cursor
      behaves as 0. */
  lemma FullRound(links: seq<string>, cursor: Option<int>)
    requires |links| > 0
    requires CursorInRange(links, cursor)
    ensures var c := cursor.GetOr(0);
      && Deal(links, cursor, |links|).0 == links[c..] + links[..c]
      && Deal(links, cursor, |links|).1 == Some(c)
    ensures multiset(Deal(links, cursor, |links|).0) == multiset(links)
  {
    var c := cursor.GetOr(0);
    DealAbsentCursor(links, |links|);
    FullRoundFrom(links, c);
    RotationPermutes(links, c);
  }

  /** An absent cursor deals exactly as a cursor stored at 0. */
  lemma DealAbsentCursor(links: seq<string>, k: nat)
    requires |links| > 0 && k > 0
    ensures Deal(links, None, k) == Deal(links, Some(0), k)
  {
    assert Allocate(links, None) == Allocate(links, Some(0));
  }

  lemma FullRoundFrom(links: seq<string>, c: int)
    requires 0 <= c < |links|
    ensures Deal(links, Some(c), |links|) == (links[c..] + links[..c], Some(c))
  {
    var n := |links|;
    var dealt := Deal(links, Some(c), n);
    DealRotates(links, c, n);
    ModUnique(c + n, 1, c, n);
    var d := dealt.0;
    var rot := links[c..] + links[..c];
    forall i | 0 <= i < n
      ensures d[i] == rot[i]
    {
      RotationIndex(links, c, i);
    }
    assert d == rot;
  }

  lemma RotationIndex(links: seq<string>, c: int, i: int)
    requires 0 <= c < |links| && 0 <= i < |links|
    ensures (links[c..] + links[..c])[i] == links[(c + i) % |links|]
  {
    var n := |links|;
    if i < n - c {
      ModUnique(c + i, 0, c + i, n);
    } else {
      ModUnique(c + i, 1, c + i - n, n);
    }
  }

  lemma RotationPermutes<T>(xs: seq<T>, c: int)
    requires 0 <= c <= |xs|
    ensures multiset(xs[c..] + xs[..c]) == multiset(xs)
  {
    assert xs[..c] + xs[c..] == xs;
  }
}

=== FILE: marker.dfy ===
/** Post-processing of the language model's reply: the reserved marker asks for the guide
    document, is removed from the text, and the text is stripped of surrounding whitespace. */
module GuideMarker {

  const Marker: string := "[SEND_GUIDE_PDF]"

  /** The marker starts at index `i` of `s`. */
  predicate OccursAt(s: string, i: int) {
    0 <= i && i + |Marker| <= |s| && s[i..i + |Marker|] == Marker
  }

  /** Python's `Marker in s`. */
  predicate ContainsMarker(s: string) {
    exists i | 0 <= i <= |s| :: OccursAt(s, i)
  }

  /** The characters for which Python's `str.isspace()` holds, the set `str.strip()` removes
      when called without arguments. */
  predicate IsSpace(c: char) {
    || '\t' <= c <= '\r'
    || '\U{1c}' <= c <= '\U{1f}'
    || c == ' '
    || c == '\U{85}'
    || c == '\U{a0}'
    || c == '\U{1680}'
    || '\U{2000}' <= c <= '\U{200a}'
    || c == '\U{2028}'
    || c == '\U{2029}'
    || c == '\U{202f}'
    || c == '\U{205f}'
    || c == '\U{3000}'
  }

  predicate AllSpace(s: string) {
    forall k :: 0 <= k < |s| ==> IsSpace(s[k])
  }

  /** `r` is the slice `s[a..b]`, only whitespace lies around it, and it is empty or begins and
      ends with a non-whitespace character. */
  predicate StripAt(r: string, s: string, a: int, b: int) {
    && 0 <= a <= b <= |s|
    && r == s[a..b]
    && AllSpace(s[..a])
    && AllSpace(s[b..])
    && (|r| == 0 || (!IsSpace(r[0]) && !IsSpace(r[|r| - 1])))
  }

  /** `r` is `s` with its leading and trailing whitespace removed. */
  ghost predicate IsStripOf(r: string, s: string) {
    exists a, b :: StripAt(r, s, a, b)
  }

  function TrimStart(s: string): (r: string)
    ensures |r| <= |s| && r == s[|s| - |r|..]
    ensures AllSpace(s[..|s| - |r|])
    ensures |r| > 0 ==> !IsSpace(r[0])
  {
    if |s| > 0 && IsSpace(s[0]) then TrimStart(s[1..]) else s
  }

  function TrimEnd(s: string): (r: string)
    ensures |r| <= |s| && r == s[..|r|]
    ensures AllSpace(s[|r|..])
    ensures |r| > 0 ==> !IsSpace(r[|r| - 1])
  {
    if |s| > 0 && IsSpace(s[|s| - 1]) then TrimEnd(s[..|s| - 1]) else s
  }

  /** Python's `s.strip()`. */
  function Strip(s: string): (r: string)
    ensures IsStripOf(r, s)
  {
    TrimBoth(s);
    TrimEnd(TrimStart(s))
  }

  lemma TrimBoth(s: string)
    ensures IsStripOf(TrimEnd(TrimStart(s)), s)
  {
    var t := TrimStart(s);
    var r := TrimEnd(t);
    var a := |s| - |t|;
    assert r == s[a..a + |r|];
    assert s[a + |r|..] == t[|r|..];
    if |r| == 0 {
      assert s[..a] + t == s;
      AllSpaceEverywhere(s, a);
      assert AllSpace(s[a..]);
    }
    assert StripAt(r, s, a, a + |r|);
  }

  /** A string has exactly one stripped form. */
  lemma StripUnique(r1: string, r2: string, s: string)
    requires IsStripOf(r1, s) && IsStripOf(r2, s)
    ensures r1 == r2
  {
    var a1, b1 :| StripAt(r1, s, a1, b1);
    var a2, b2 :| StripAt(r2, s, a2, b2);
    StripEmptyIffAllSpace(r1, s, a1, b1);
    StripEmptyIffAllSpace(r2, s, a2, b2);
    if |r1| > 0 && |r2| > 0 {
      assert r1[0] == s[a1] && r1[|r1| - 1] == s[b1 - 1];
      assert r2[0] == s[a2] && r2[|r2| - 1] == s[b2 - 1];
      SameStart(s, a1, a2);
      SameEnd(s, b1, b2);
    }
  }

  /** The stripped form is empty exactly when the string is all whitespace. */
  lemma StripEmptyIffAllSpace(r: string, s: string, a: int, b: int)
    requires StripAt(r, s, a, b)
    ensures |r| == 0 <==> AllSpace(s)
  {
    if |r| == 0 {
      assert s[..a] + s[b..] == s;
      AllSpaceEverywhere(s, a);
    } else {
      assert s[a] == r[0];
    }
  }

  lemma SameStart(s: string, a1: int, a2: int)
    requires 0 <= a1 < |s| && 0 <= a2 < |s|
    requires AllSpace(s[..a1]) && AllSpace(s[..a2])
    requires !IsSpace(s[a1]) && !IsSpace(s[a2])
    ensures a1 == a2
  {
  }

  lemma SameEnd(s: string, b1: int, b2: int)
    requires 0 < b1 <= |s| && 0 < b2 <= |s|
    requires AllSpace(s[b1..]) && AllSpace(s[b2..])
    requires !IsSpace(s[b1 - 1]) && !IsSpace(s[b2 - 1])
    ensures b1 == b2
  {
  }

  lemma AllSpaceEverywhere(s: string, a: int)
    requires 0 <= a <= |s| && AllSpace(s[..a]) && AllSpace(s[a..])
    ensures AllSpace(s)
  {
    forall k | 0 <= k < |s|
      ensures IsSpace(s[k])
    {
      if k < a { assert s[..a][k] == s[k]; } else { assert s[a..][k - a] == s[k]; }
    }
  }

  /** Stripping twice is stripping once. */
  lemma StripIdempotent(s: string)
    ensures Strip(Strip(s)) == Strip(s)
  {
    var r := Strip(s);
    var a, b :| StripAt(r, s, a, b);
    assert r[..0] == [] && r[|r|..] == [] && r[0..|r|] == r;
    assert StripAt(r, r, 0, |r|);
    StripUnique(Strip(r), r, r);
  }

  /** Python's `s.replace(Marker, "")`: one left-to-right pass removing non-overlapping
      occurrences of the marker. */
  function RemoveMarkers(s: string): string
    decreases |s|
  {
    if |s| < |Marker| then s
    else if s[..|Marker|] == Marker then RemoveMarkers(s[|Marker|..])
    else [s[0]] + RemoveMarkers(s[1..])
  }

  /** The reply text to send and whether the guide document is requested. */
  datatype Delivery = Delivery(text: string, sendGuide: bool)

  /** The marker rule of the text handler: with the marker present, the text sent is the reply
      with every marker removed and then stripped, and the guide is requested; otherwise the
      reply goes out verbatim and no document is sent. */
  function Deliver(reply: string): (r: Delivery)
    ensures r.sendGuide <==> ContainsMarker(reply)
    ensures !r.sendGuide ==> r.text == reply
    ensures r.sendGuide ==> IsStripOf(r.text, RemoveMarkers(reply))
  {
    if ContainsMarker(reply) then Delivery(Strip(RemoveMarkers(reply)), true)
    else Delivery(reply, false)
  }

  /** With the marker present, the text sent is the reply with every marker removed, then
      stripped. */
  lemma DeliverWithMarker(reply: string)
    requires ContainsMarker(reply)
    ensures Deliver(reply) == Delivery(Strip(RemoveMarkers(reply)), true)
  {
  }

  // ---------------------------------------------------------------------------------------
  // What marker removal computes

  /** The marker's opening bracket appears nowhere else in it, so two occurrences never
      overlap. */
  lemma MarkerFacts()
    ensures |Marker| == 16
    ensures Marker[0] == '['
    ensures forall d :: 0 < d < |Marker| ==> Marker[d] != '['
  {
    assert Marker == ['[', 'S', 'E', 'N', 'D', '_', 'G', 'U', 'I', 'D', 'E', '_', 'P', 'D', 'F', ']'];
  }

  lemma NoMarkerInTail(s: string)
    requires |s| > 0 && !ContainsMarker(s)
    ensures !ContainsMarker(s[1..])
  {
    if ContainsMarker(s[1..]) {
      var t := s[1..];
      var i :| 0 <= i <= |t| && OccursAt(t, i);
      assert t[i..i + |Marker|] == s[i + 1..i + 1 + |Marker|];
      assert OccursAt(s, i + 1);
    }
  }

  /** Removal leaves a string without the marker unchanged, and only such a string. */
  lemma {:induction false} RemoveMarkersIdentity(s: string)
    ensures RemoveMarkers(s) == s <==> !ContainsMarker(s)
    decreases |s|
  {
    if !ContainsMarker(s) {
      if |s| >= |Marker| {
        assert !OccursAt(s, 0);
        NoMarkerInTail(s);
        RemoveMarkersIdentity(s[1..]);
        assert [s[0]] + s[1..] == s;
      }
    } else {
      RemoveMarkersShrinks(s);
    }
  }

  /** Removal never lengthens a string, and shortens every string holding the marker. */
  lemma {:induction false} RemoveMarkersShrinks(s: string)
    ensures |RemoveMarkers(s)| <= |s|
    ensures ContainsMarker(s) ==> |RemoveMarkers(s)| < |s|
    decreases |s|
  {
    if |s| >= |Marker| {
      if s[..|Marker|] == Marker {
        RemoveMarkersShrinks(s[|Marker|..]);
      } else {
        RemoveMarkersShrinks(s[1..]);
        if ContainsMarker(s) {
          var i :| 0 <= i <= |s| && OccursAt(s, i);
          assert i != 0;
          var t := s[1..];
          assert t[i - 1..i - 1 + |Marker|] == s[i..i + |Marker|];
          assert OccursAt(t, i - 1);
        }
      }
    }
  }

  /** A marker-free prefix followed by the marker: the prefix is kept and the marker dropped. */
  lemma {:induction false} RemoveMarkersAfterPiece(p: string, rest: string)
    requires !ContainsMarker(p)
    ensures RemoveMarkers(p + Marker + rest) == p + RemoveMarkers(rest)
    decreases |p|
  {
    var s := p + Marker + rest;
    if |p| == 0 {
      assert s == Marker + rest;
      assert s[..|Marker|] == Marker && s[|Marker|..] == rest;
    } else {
      NotMarkerAtStart(p, rest);
      assert RemoveMarkers(s) == [s[0]] + RemoveMarkers(s[1..]);
      NoMarkerInTail(p);
      assert s[1..] == p[1..] + Marker + rest;
      RemoveMarkersAfterPiece(p[1..], rest);
      assert [p[0]] + p[1..] == p;
    }
  }

  lemma NotMarkerAtStart(p: string, rest: string)
    requires |p| > 0 && !ContainsMarker(p)
    ensures var s := p + Marker + rest; |s| >= |Marker| && s[..|Marker|] != Marker
  {
    MarkerFacts();
    var s := p + Marker + rest;
    if |p| >= |Marker| {
      assert !OccursAt(p, 0);
      assert s[..|Marker|] == p[..|Marker|];
    } else {
      assert s[|p|] == '[';
      assert s[..|Marker|][|p|] != Marker[|p|];
    }
  }

  /** `Marker.join(pieces)`. */
  function Join(pieces: seq<string>): string {
    if |pieces| == 0 then ""
    else if |pieces| == 1 then pieces[0]
    else pieces[0] + Marker + Join(pieces[1..])
  }

  /** `"".join(pieces)`. */
  function Concat(pieces: seq<string>): string {
    if |pieces| == 0 then "" else pieces[0] + Concat(pieces[1..])
  }

  /** Removing the markers from marker-free pieces joined by the marker gives the pieces
      concatenated: exactly the markers are removed, and nothing else. */
  lemma {:induction false} RemoveMarkersJoin(pieces: seq<string>)
    requires forall i :: 0 <= i < |pieces| ==> !ContainsMarker(pieces[i])
    ensures RemoveMarkers(Join(pieces)) == Concat(pieces)
    decreases |pieces|
  {
    if |pieces| == 1 {
      RemoveMarkersIdentity(pieces[0]);
      assert Concat(pieces) == pieces[0] + "";
    } else if |pieces| > 1 {
      RemoveMarkersAfterPiece(pieces[0], Join(pieces[1..]));
      RemoveMarkersJoin(pieces[1..]);
    }
  }

  /** Python's `s.split(Marker)`: the marker-free pieces between non-overlapping occurrences,
      left to right; joining them back with the marker rebuilds `s`. */
  function Split(s: string): (pieces: seq<string>)
    ensures |pieces| >= 1
    ensures Join(pieces) == s
    ensures forall i :: 0 <= i < |pieces| ==> !ContainsMarker(pieces[i])
    decreases |s|
  {
    if |s| < |Marker| then
      [s]
    else if s[..|Marker|] == Marker then
      var rest := Split(s[|Marker|..]);
      assert Join([""] + rest) == "" + Marker + Join(rest);
      assert s == s[..|Marker|] + s[|Marker|..];
      [""] + rest
    else
      var t := Split(s[1..]);
      var first := [s[0]] + t[0];
      FirstPieceMarkerFree(s, t);
      assert s == [s[0]] + s[1..];
      [first] + t[1..]
  }

  lemma FirstPieceMarkerFree(s: string, t: seq<string>)
    requires |s| >= |Marker| && s[..|Marker|] != Marker
    requires |t| >= 1 && Join(t) == s[1..] && !ContainsMarker(t[0])
    ensures !ContainsMarker([s[0]] + t[0])
    ensures Join([[s[0]] + t[0]] + t[1..]) == s
  {
    FirstPieceIsPrefix(s, t);
    ConsMarkerFree(s[0], t[0], s);
    FirstPieceJoin(s, t);
  }

  lemma FirstPieceIsPrefix(s: string, t: seq<string>)
    requires |s| >= 1 && |t| >= 1 && Join(t) == s[1..]
    ensures |[s[0]] + t[0]| <= |s| && [s[0]] + t[0] == s[..|[s[0]] + t[0]|]
  {
    JoinStartsWithFirst(t);
    var u := s[1..];
    assert t[0] == u[..|t[0]|];
    assert s[..1 + |t[0]|] == [s[0]] + u[..|t[0]|];
  }

  /** A prefix of `s` whose tail is marker-free is marker-free when `s` does not start with the
      marker. */
  lemma ConsMarkerFree(c: char, p: string, s: string)
    requires !ContainsMarker(p)
    requires 1 + |p| <= |s| && [c] + p == s[..1 + |p|]
    requires |s| >= |Marker| && s[..|Marker|] != Marker
    ensures !ContainsMarker([c] + p)
  {
    var q := [c] + p;
    assert q[1..] == p;
    if ContainsMarker(q) {
      var i :| 0 <= i <= |q| && OccursAt(q, i);
      if i != 0 {
        var x := q[1..];
        assert q[i..i + |Marker|] == x[i - 1..i - 1 + |Marker|];
        assert OccursAt(x, i - 1);
      }
    }
  }

  lemma FirstPieceJoin(s: string, t: seq<string>)
    requires |s| >= 1 && |t| >= 1 && Join(t) == s[1..]
    ensures Join([[s[0]] + t[0]] + t[1..]) == s
  {
    var q := [s[0]] + t[0];
    var p := [q] + t[1..];
    if |t| == 1 {
      assert p == [q];
      assert q == s by {
        assert t[0] == s[1..];
      }
    } else {
      assert Join(p) == q + Marker + Join(t[1..]) by {
        assert p[0] == q && p[1..] == t[1..];
        JoinCons(p);
      }
      assert t[0] + Marker + Join(t[1..]) == s[1..] by {
        JoinCons(t);
      }
      Cons3(s, t[0], Join(t[1..]));
    }
  }

  lemma Cons3(s: string, a: string, b: string)
    requires |s| >= 1 && a + Marker + b == s[1..]
    ensures ([s[0]] + a) + Marker + b == s
  {
    assert ([s[0]] + a) + Marker + b == [s[0]] + (a + Marker + b);
    assert [s[0]] + s[1..] == s;
  }

  lemma JoinCons(t: seq<string>)
    requires |t| > 1
    ensures Join(t) == t[0] + Marker + Join(t[1..])
  {
  }

  lemma JoinStartsWithFirst(t: seq<string>)
    requires |t| >= 1
    ensures |t[0]| <= |Join(t)| && Join(t)[..|t[0]|] == t[0]
  {
    if |t| > 1 {
      assert Join(t) == t[0] + (Marker + Join(t[1..]));
    }
  }

  /** `s.replace(Marker, "")` equals `"".join(s.split(Marker))`: removal drops exactly the
      occurrences that splitting finds. */
  lemma RemoveMarkersIsConcatOfSplit(s: string)
    ensures RemoveMarkers(s) == Concat(Split(s))
  {
    RemoveMarkersJoin(Split(s));
  }
}

=== FILE: onboarding.dfy ===
/** The per-user onboarding state machine of the bot: the dispatcher, its three message
    handlers and the two timer callbacks, as pure functions over an in-memory store. Outbound
    effects (messages, documents, notifications, the language-model call, scheduling and
    cancelling jobs) are returned as `Action` values; the store carries the per-user data, the
    shared link cursor and the pending jobs. */
module Onboarding {
  import opened Wrappers
  import opened Jobs
  import LinkAllocator
  import GuideMarker

  // ---------------------------------------------------------------------------------------
  // States

  const NEW_USER: string := "new_user"
  const AWAITING_SCREENSHOT: string := "awaiting_screenshot"
  const AWAITING_VERIFICATION: string := "awaiting_verification"
  const EXPIRED: string := "expired"

  /** The stored state string as the dispatcher reads it; any other string falls through every
      branch of the dispatcher. */
  datatype Phase = NewUser | AwaitingScreenshot | AwaitingVerification | Expired | Unrecognised(name: string)

  predicate IsKnownName(s: string) {
    s == NEW_USER || s == AWAITING_SCREENSHOT || s == AWAITING_VERIFICATION || s == EXPIRED
  }

  /** The string a phase is stored as. */
  function PhaseName(p: Phase): string {
    match p
    case NewUser => NEW_USER
    case AwaitingScreenshot => AWAITING_SCREENSHOT
    case AwaitingVerification => AWAITING_VERIFICATION
    case Expired => EXPIRED
    case Unrecognised(name) => name
  }

  /** The dispatcher's string comparisons, as one classification. Every string is read as
      exactly one phase and is written back unchanged; `Unrecognised` holds only the strings
      that match none of the four names. */
  function ParsePhase(s: string): (p: Phase)
    ensures PhaseName(p) == s
    ensures p.Unrecognised? <==> !IsKnownName(s)
  {
    if s == NEW_USER then NewUser
    else if s == AWAITING_SCREENSHOT then AwaitingScreenshot
    else if s == AWAITING_VERIFICATION then AwaitingVerification
    else if s == EXPIRED then Expired
    else Unrecognised(s)
  }

  // ---------------------------------------------------------------------------------------
  // Store

  /** The keys the handlers write into a user's `user_data`; each may be absent. */
  datatype UserData = UserData(state: Option<string>, firstName: Option<string>, assignedLink: Option<string>)

  const NoUserData := UserData(None, None, None)

  /** `user_data` of every user, the `link_index` entry of `bot_data`, and the job queue. */
  datatype Store = Store(users: map<UserId, UserData>, cursor: Option<int>, jobs: seq<Job>)

  const EmptyStore := Store(map[], None, [])

  /** The test links handed out in rotation, and whether an operator chat is configured. */
  datatype Config = Config(links: seq<string>, adminChat: bool)

  /** `TEST_LINKS` of the deployed bot. */
  const TestLinks: seq<string> := [
    "https://www.amazon.com/review/create-review/ref=...&asin=LINK1",
    "https://www.amazon.com/review/create-review/ref=...&asin=LINK2",
    "https://www.amazon.com/review/create-review/ref=...&asin=LINK3"
  ]

  /** A user's data; a user never seen has none. */
  function RecordOf(s: Store, u: UserId): UserData {
    if u in s.users then s.users[u] else NoUserData
  }

  /** The stored state, read as `new_user` when absent, classified. */
  function PhaseOf(s: Store, u: UserId): Phase {
    ParsePhase(RecordOf(s, u).state.GetOr(NEW_USER))
  }

  // ---------------------------------------------------------------------------------------
  // Events and actions

  /** What an inbound message carries: a photo, text, or anything else. */
  datatype Body = Photo | Text(content: string) | Other

  /** An inbound message from a user (with the sender's first name), or one of the user's two
      timers firing. */
  datatype Event = Inbound(firstName: string, body: Body) | ReminderFired | ExpirationFired

  /** What the language model is asked: the user's state, first name and link (with the
      defaults the prompt builder uses when a key is missing) and the user's message. */
  datatype AiRequest = AiRequest(state: string, firstName: string, link: string, message: string)

  /** The fixed texts the bot sends, with the values interpolated into them. */
  datatype Message =
    | Welcome(firstName: string, link: string)
    | ScreenshotReceived
    | PromptScreenshot
    | InReviewQueue
    | WindowExpired(firstName: string)
    | Reminder(firstName: string)
    | AiReply(text: string)

  datatype Action =
    | Reply(msg: Message)                       // reply to the user's message
    | SendMessage(chat: UserId, msg: Message)   // message sent by a job to its chat
    | Schedule(job: Job)
    | Cancel(name: string)
    | NotifyAdmin(userId: UserId)               // "screenshot received" notice to the operator
    | ForwardToAdmin(userId: UserId)            // the photo itself, forwarded to the operator
    | AskAI(request: AiRequest)
    | SendGuide                                 // the guide document

  /** The store after an event and the actions issued, in order. */
  datatype Outcome = Outcome(store: Store, actions: seq<Action>)

  // ---------------------------------------------------------------------------------------
  // Handlers

  /** A message counts as text only when its text is non-empty, as Python's truth test on a
      string has it. */
  predicate HasText(b: Body) {
    b.Text? && |b.content| > 0
  }

  function ReminderJobFor(u: UserId, firstName: string): Job {
    Job(JobName(RunReminder, u), RunReminder, u, ReminderDelay, Some(firstName))
  }

  function ExpirationJobFor(u: UserId): Job {
    Job(JobName(RunExpiration, u), RunExpiration, u, ExpirationDelay, None)
  }

  /** `handle_new_user`: allocate a link, record state, name and link, send the welcome and
      schedule the reminder and the expiration. When the link lookup raises, nothing after it
      happens; only the cursor write that precedes the lookup persists. */
  function HandleNewUser(cfg: Config, s: Store, u: UserId, firstName: string): Outcome {
    var a := LinkAllocator.Allocate(cfg.links, s.cursor);
    match a.link
    case None => Outcome(s.(cursor := a.cursor), [])
    case Some(link) =>
      var record := UserData(Some(AWAITING_SCREENSHOT), Some(firstName), Some(link));
      var reminder := ReminderJobFor(u, firstName);
      var expiration := ExpirationJobFor(u);
      Outcome(
        Store(s.users[u := record], a.cursor, s.jobs + [reminder, expiration]),
        [Reply(Welcome(firstName, link)), Schedule(reminder), Schedule(expiration)])
  }

  /** `handle_photo`: the state becomes `awaiting_verification`, every job named after the
      user's reminder or expiration is removed, the user is thanked and, when an operator chat is
      configured, the operator is notified and the photo forwarded. */
  function HandlePhoto(cfg: Config, s: Store, u: UserId): Outcome {
    var record := RecordOf(s, u).(state := Some(AWAITING_VERIFICATION));
    var names := {JobName(RunReminder, u), JobName(RunExpiration, u)};
    Outcome(s.(users := s.users[u := record], jobs := RemoveNamed(s.jobs, names)), PhotoActions(cfg, u))
  }

  /** What `handle_photo` does besides writing the store: cancel both timers by name, thank the
      user and, with an operator chat configured, notify the operator and forward the photo. */
  function PhotoActions(cfg: Config, u: UserId): seq<Action> {
    [Cancel(JobName(RunReminder, u)), Cancel(JobName(RunExpiration, u)), Reply(ScreenshotReceived)]
      + (if cfg.adminChat then [NotifyAdmin(u), ForwardToAdmin(u)] else [])
  }

  /** The request `get_ai_response` builds from the user's data and message. */
  function RequestFor(s: Store, u: UserId, text: string): AiRequest {
    var d := RecordOf(s, u);
    AiRequest(d.state.GetOr(NEW_USER), d.firstName.GetOr("there"),
              d.assignedLink.GetOr("ERROR: No link assigned"), text)
  }

  /** `handle_text_message`: an expired user gets the fixed expiry notice; anyone else gets the
      language model's reply, after the marker rule. It never writes the store. */
  function HandleText(ai: AiRequest -> string, s: Store, u: UserId, firstName: string, text: string): Outcome {
    if RecordOf(s, u).state == Some(EXPIRED) then
      Outcome(s, [Reply(WindowExpired(firstName))])
    else
      var request := RequestFor(s, u, text);
      var delivery := GuideMarker.Deliver(ai(request));
      Outcome(s, [AskAI(request), Reply(AiReply(delivery.text))]
                   + (if delivery.sendGuide then [SendGuide] else []))
  }

  /** `dispatcher`: route an inbound message by the sender's state. */
  function Dispatch(cfg: Config, ai: AiRequest -> string, s: Store, u: UserId, firstName: string, body: Body): Outcome {
    match PhaseOf(s, u)
    case NewUser => HandleNewUser(cfg, s, u, firstName)
    case AwaitingScreenshot =>
      if body.Photo? then HandlePhoto(cfg, s, u)
      else if HasText(body) then HandleText(ai, s, u, firstName, body.content)
      else Outcome(s, [Reply(PromptScreenshot)])
    case AwaitingVerification =>
      if HasText(body) then HandleText(ai, s, u, firstName, body.content)
      else Outcome(s, [Reply(InReviewQueue)])
    case Expired =>
      if HasText(body) then HandleText(ai, s, u, firstName, body.content)
      else Outcome(s, [Reply(InReviewQueue)])
    case Unrecognised(_) => Outcome(s, [])
  }

  /** `reminder_job`: a message to the job's chat using the name stored in the job's data. */
  function ReminderJob(s: Store, j: Job): Outcome {
    match j.data
    case Some(firstName) => Outcome(s, [SendMessage(j.userId, Reminder(firstName))])
    case None => Outcome(s, [])
  }

  /** `expiration_job`: the user's state becomes `expired`, but only if the user is known and
      still `awaiting_screenshot`. */
  function ExpirationJob(s: Store, j: Job): Outcome {
    var u := j.userId;
    if u in s.users && s.users[u].state == Some(AWAITING_SCREENSHOT) then
      Outcome(s.(users := s.users[u := s.users[u].(state := Some(EXPIRED))]), [])
    else
      Outcome(s, [])
  }

  /** The job queue fires the first pending job called `name`: it leaves the queue and its
      callback runs. With no such job pending nothing happens. */
  function Fire(s: Store, name: string): Outcome {
    match FirstNamed(s.jobs, name)
    case None => Outcome(s, [])
    case Some(j) =>
      var s' := s.(jobs := RemoveFirst(s.jobs, name));
      match j.callback
      case RunReminder => ReminderJob(s', j)
      case RunExpiration => ExpirationJob(s', j)
  }

  /** One event concerning user `u`. */
  function Step(cfg: Config, ai: AiRequest -> string, s: Store, u: UserId, e: Event): Outcome {
    match e
    case Inbound(firstName, body) => Dispatch(cfg, ai, s, u, firstName, body)
    case ReminderFired => Fire(s, JobName(RunReminder, u))
    case ExpirationFired => Fire(s, JobName(RunExpiration, u))
  }

  /** An event and the user it concerns. */
  datatype Input = Input(user: UserId, event: Event)

  /** Events processed one after another; the actions are concatenated. */
  function Run(cfg: Config, ai: AiRequest -> string, s: Store, inputs: seq<Input>): Outcome
    decreases |inputs|
  {
    if |inputs| == 0 then Outcome(s, [])
    else
      var first := Step(cfg, ai, s, inputs[0].user, inputs[0].event);
      var rest := Run(cfg, ai, first.store, inputs[1..]);
      Outcome(rest.store, first.actions + rest.actions)
  }

  // ---------------------------------------------------------------------------------------
  // The invariant of reachable stores

  /** The states the handlers write. */
  predicate IsWrittenState(st: Option<string>) {
    st == Some(AWAITING_SCREENSHOT) || st == Some(AWAITING_VERIFICATION) || st == Some(EXPIRED)
  }

  /** Every stored user has a written state, a first name and a link from the list. */
  predicate RecordsWellFormed(cfg: Config, s: Store) {
    forall u :: u in s.users ==>
      && IsWrittenState(s.users[u].state)
      && s.users[u].firstName.Some?
      && s.users[u].assignedLink.Some?
      && s.users[u].assignedLink.value in cfg.links
  }

  /** Every pending job belongs to a stored user, is named after its callback and user, has its
      callback's delay, and a reminder carries the first name recorded for its user. */
  predicate JobsWellFormed(s: Store) {
    forall j :: j in s.jobs ==>
      && j.userId in s.users
      && j.name == JobName(j.callback, j.userId)
      && j.delay == (if j.callback == RunReminder then ReminderDelay else ExpirationDelay)
      && (j.callback == RunReminder ==> j.data.Some? && j.data == s.users[j.userId].firstName)
  }

  /** A user's expiration is pending exactly while the user awaits the screenshot; at most one
      reminder is pending, and none once the screenshot has arrived. */
  predicate TimersMatchState(s: Store) {
    forall u :: u in s.users ==>
      && Count(s.jobs, JobName(RunExpiration, u)) == (if s.users[u].state == Some(AWAITING_SCREENSHOT) then 1 else 0)
      && Count(s.jobs, JobName(RunReminder, u)) <= (if s.users[u].state == Some(AWAITING_VERIFICATION) then 0 else 1)
  }

  predicate Valid(cfg: Config, s: Store) {
    && LinkAllocator.CursorInRange(cfg.links, s.cursor)
    && RecordsWellFormed(cfg, s)
    && JobsWellFormed(s)
    && TimersMatchState(s)
  }
}

=== FILE: onboarding_props.dfy ===
/** Properties of the onboarding state machine: the transition edges, the stale-timer guard, the
    job bookkeeping, the absorbing states, and the invariant every reachable store keeps. */
module OnboardingProperties {
  import opened Wrappers
  import opened Jobs
  import LinkAllocator
  import GuideMarker
  import opened Onboarding

  // ---------------------------------------------------------------------------------------
  // Transitions on inbound messages

  /** A user with no stored state moves to `awaiting_screenshot` on any kind of message: the
      store records the first name and the link at the cursor (the first link when the cursor is
      absent), the cursor advances, the welcome carries that link, and a reminder job (23 hours)
      and an expiration job (24 hours) named after the user are scheduled. Nothing else changes. */
  lemma NewUserIsOnboarded(cfg: Config, ai: AiRequest -> string, s: Store, u: UserId, name: string, body: Body)
    requires PhaseOf(s, u) == NewUser
    requires |cfg.links| > 0 && LinkAllocator.CursorInRange(cfg.links, s.cursor)
    ensures var o := Step(cfg, ai, s, u, Inbound(name, body));
      var c := s.cursor.GetOr(0);
      var link := cfg.links[c];
      var reminder := Job(JobName(RunReminder, u), RunReminder, u, 23 * 3600, Some(name));
      var expiration := Job(JobName(RunExpiration, u), RunExpiration, u, 24 * 3600, None);
      && PhaseOf(o.store, u) == AwaitingScreenshot
      && RecordOf(o.store, u) == UserData(Some("awaiting_screenshot"), Some(name), Some(link))
      && (forall v :: v != u ==> RecordOf(o.store, v) == RecordOf(s, v))
      && o.store.cursor == Some((c + 1) % |cfg.links|)
      && o.store.jobs == s.jobs + [reminder, expiration]
      && o.actions == [Reply(Welcome(name, link)), Schedule(reminder), Schedule(expiration)]
  {
    LinkAllocator.AllocateInRange(cfg.links, s.cursor);
  }

  /** When the stored cursor cannot index the list, the lookup raises before anything is
      written: no state, no message, no job. */
  lemma NewUserWithBadCursor(cfg: Config, ai: AiRequest -> string, s: Store, u: UserId, name: string, body: Body)
    requires PhaseOf(s, u) == NewUser
    requires s.cursor.Some? && !(-|cfg.links| <= s.cursor.value < |cfg.links|)
    ensures var o := Step(cfg, ai, s, u, Inbound(name, body));
      o.store == s && o.actions == []
  {
  }

  /** In `awaiting_screenshot` a photo moves the user to `awaiting_verification` and leaves no
      job named after the user's reminder or expiration; every other pending job stays. Other
      users' data and the cursor are untouched. Both timers are cancelled by name, the user is
      thanked, and the operator is notified and sent the photo exactly when an operator chat is
      configured; nothing else is sent. */
  lemma PhotoAdvancesToVerification(cfg: Config, ai: AiRequest -> string, s: Store, u: UserId, name: string)
    requires PhaseOf(s, u) == AwaitingScreenshot
    ensures var o := Step(cfg, ai, s, u, Inbound(name, Photo));
      && PhaseOf(o.store, u) == AwaitingVerification
      && RecordOf(o.store, u).firstName == RecordOf(s, u).firstName
      && RecordOf(o.store, u).assignedLink == RecordOf(s, u).assignedLink
      && (forall v :: v != u ==> RecordOf(o.store, v) == RecordOf(s, v))
      && o.store.cursor == s.cursor
      && Count(o.store.jobs, JobName(RunReminder, u)) == 0
      && Count(o.store.jobs, JobName(RunExpiration, u)) == 0
      && (forall j :: j in o.store.jobs <==>
            j in s.jobs && j.name != JobName(RunReminder, u) && j.name != JobName(RunExpiration, u))
      && Reply(ScreenshotReceived) in o.actions
      && (NotifyAdmin(u) in o.actions <==> cfg.adminChat)
      && (ForwardToAdmin(u) in o.actions <==> cfg.adminChat)
      && o.actions == [Cancel(JobName(RunReminder, u)), Cancel(JobName(RunExpiration, u)), Reply(ScreenshotReceived)]
                      + (if cfg.adminChat then [NotifyAdmin(u), ForwardToAdmin(u)] else [])
  {
    assert Step(cfg, ai, s, u, Inbound(name, Photo)) == HandlePhoto(cfg, s, u);
    PhotoRecords(cfg, s, u);
    PhotoJobs(cfg, s, u);
    PhotoActionsCover(cfg, u);
  }

  lemma PhotoRecords(cfg: Config, s: Store, u: UserId)
    ensures var t := HandlePhoto(cfg, s, u).store;
      && PhaseOf(t, u) == AwaitingVerification
      && RecordOf(t, u).firstName == RecordOf(s, u).firstName
      && RecordOf(t, u).assignedLink == RecordOf(s, u).assignedLink
      && (forall v :: v != u ==> RecordOf(t, v) == RecordOf(s, v))
      && t.cursor == s.cursor
  {
  }

  lemma PhotoJobs(cfg: Config, s: Store, u: UserId)
    ensures var t := HandlePhoto(cfg, s, u).store;
      && Count(t.jobs, JobName(RunReminder, u)) == 0
      && Count(t.jobs, JobName(RunExpiration, u)) == 0
      && (forall j :: j in t.jobs <==>
            j in s.jobs && j.name != JobName(RunReminder, u) && j.name != JobName(RunExpiration, u))
  {
  }

  lemma PhotoActionsCover(cfg: Config, u: UserId)
    ensures var acts := PhotoActions(cfg, u);
      && Reply(ScreenshotReceived) in acts
      && (NotifyAdmin(u) in acts <==> cfg.adminChat)
      && (ForwardToAdmin(u) in acts <==> cfg.adminChat)
  {
    var acts := PhotoActions(cfg, u);
    assert acts[2] == Reply(ScreenshotReceived);
    if cfg.adminChat {
      assert acts[3] == NotifyAdmin(u) && acts[4] == ForwardToAdmin(u);
    }
  }


  /** Cancelling by name spares every other user: a well-named job of another user survives the
      photo, whatever its kind. */
  lemma PhotoSparesOtherUsersJobs(cfg: Config, ai: AiRequest -> string, s: Store, u: UserId, name: string, j: Job)
    requires PhaseOf(s, u) == AwaitingScreenshot
    requires j in s.jobs && j.name == JobName(j.callback, j.userId) && j.userId != u
    ensures j in Step(cfg, ai, s, u, Inbound(name, Photo)).store.jobs
  {
    JobNameInjective(j.callback, j.userId, RunReminder, u);
    JobNameInjective(j.callback, j.userId, RunExpiration, u);
  }

  /** In `awaiting_screenshot` a text goes to the language model, with the user's stored state,
      name and link, and the reply goes out after the marker rule; a message that is neither a
      photo nor a non-empty text gets the screenshot prompt. Either way state, link, cursor and
      jobs stay as they were. */
  lemma AwaitingScreenshotNonPhoto(cfg: Config, ai: AiRequest -> string, s: Store, u: UserId, name: string, body: Body)
    requires PhaseOf(s, u) == AwaitingScreenshot && !body.Photo?
    ensures var o := Step(cfg, ai, s, u, Inbound(name, body));
      && o.store == s
      && (HasText(body) ==>
            var request := AiRequest("awaiting_screenshot",
                                     RecordOf(s, u).firstName.GetOr("there"),
                                     RecordOf(s, u).assignedLink.GetOr("ERROR: No link assigned"),
                                     body.content);
            var reply := ai(request);
            && o.actions[0] == AskAI(request)
            && (GuideMarker.ContainsMarker(reply) ==>
                  o.actions[1..] == [Reply(AiReply(GuideMarker.Strip(GuideMarker.RemoveMarkers(reply)))), SendGuide])
            && (!GuideMarker.ContainsMarker(reply) ==> o.actions[1..] == [Reply(AiReply(reply))]))
      && (!HasText(body) ==> o.actions == [Reply(PromptScreenshot)])
  {
    var o := Step(cfg, ai, s, u, Inbound(name, body));
    if HasText(body) {
      assert o == HandleText(ai, s, u, name, body.content);
      assert RecordOf(s, u).state.GetOr(NEW_USER) == "awaiting_screenshot";
      TextIsAnswered(ai, s, u, name, body.content);
    } else {
      assert o == Outcome(s, [Reply(PromptScreenshot)]);
    }
  }

  /** Outside `expired`, a text is put to the language model and its reply is delivered by the
      marker rule; the store is not written. */
  lemma TextIsAnswered(ai: AiRequest -> string, s: Store, u: UserId, name: string, text: string)
    requires RecordOf(s, u).state != Some(EXPIRED)
    ensures var o := HandleText(ai, s, u, name, text);
      var request := RequestFor(s, u, text);
      var reply := ai(request);
      && o.store == s
      && o.actions[0] == AskAI(request)
      && (GuideMarker.ContainsMarker(reply) ==>
            o.actions[1..] == [Reply(AiReply(GuideMarker.Strip(GuideMarker.RemoveMarkers(reply)))), SendGuide])
      && (!GuideMarker.ContainsMarker(reply) ==> o.actions[1..] == [Reply(AiReply(reply))])
  {
    var reply := ai(RequestFor(s, u, text));
    if GuideMarker.ContainsMarker(reply) {
      GuideMarker.DeliverWithMarker(reply);
    }
  }

  /** `awaiting_verification` and `expired` are absorbing for inbound messages: the store does
      not change. A text in `expired` gets the fixed expiry notice and the language model is not
      asked; a text in `awaiting_verification` is answered by the model; anything else in either
      state gets the review-queue notice. */
  lemma TerminalStatesIgnoreMessages(cfg: Config, ai: AiRequest -> string, s: Store, u: UserId, name: string, body: Body)
    requires PhaseOf(s, u) == AwaitingVerification || PhaseOf(s, u) == Expired
    ensures var o := Step(cfg, ai, s, u, Inbound(name, body));
      && o.store == s
      && (PhaseOf(s, u) == Expired && HasText(body) ==> o.actions == [Reply(WindowExpired(name))])
      && (PhaseOf(s, u) == AwaitingVerification && HasText(body) ==>
            o.actions[0] == AskAI(RequestFor(s, u, body.content)))
      && (!HasText(body) ==> o.actions == [Reply(InReviewQueue)])
      && (forall a :: a in o.actions ==> !a.Schedule? && !a.Cancel?)
  {
  }

  /** In `awaiting_verification` a text is answered by the language model: the request carries
      the user's data and the text, the reply is delivered under the marker rule, and the store
      does not change. */
  lemma AwaitingVerificationTextIsAnswered(cfg: Config, ai: AiRequest -> string, s: Store, u: UserId, name: string, text: string)
    requires PhaseOf(s, u) == AwaitingVerification && |text| > 0
    ensures var o := Step(cfg, ai, s, u, Inbound(name, Text(text)));
      var request := RequestFor(s, u, text);
      var reply := ai(request);
      && o.store == s
      && o.actions[0] == AskAI(request)
      && (GuideMarker.ContainsMarker(reply) ==>
            o.actions[1..] == [Reply(AiReply(GuideMarker.Strip(GuideMarker.RemoveMarkers(reply)))), SendGuide])
      && (!GuideMarker.ContainsMarker(reply) ==> o.actions[1..] == [Reply(AiReply(reply))])
  {
    var o := Step(cfg, ai, s, u, Inbound(name, Text(text)));
    assert o == HandleText(ai, s, u, name, text);
    TextIsAnswered(ai, s, u, name, text);
  }

  /** A stored state outside the four known values makes every message fall through: no change
      and no action. */
  lemma UnrecognisedStateIsSilent(cfg: Config, ai: AiRequest -> string, s: Store, u: UserId, name: string, body: Body)
    requires PhaseOf(s, u).Unrecognised?
    ensures Step(cfg, ai, s, u, Inbound(name, body)) == Outcome(s, [])
  {
  }

  // ---------------------------------------------------------------------------------------
  // Timers

  /** The reminder never changes any user's data or the cursor; when a reminder is pending it
      alone leaves the queue (the first job under that name; every other job stays) and its
      message goes to the user's chat, otherwise nothing happens. */
  lemma ReminderKeepsState(cfg: Config, ai: AiRequest -> string, s: Store, u: UserId)
    requires JobsWellFormed(s)
    ensures var o := Step(cfg, ai, s, u, ReminderFired);
      && o.store.users == s.users
      && o.store.cursor == s.cursor
      && (Count(s.jobs, JobName(RunReminder, u)) == 0 ==> o == Outcome(s, []))
      && (Count(s.jobs, JobName(RunReminder, u)) > 0 ==>
            && Count(o.store.jobs, JobName(RunReminder, u)) == Count(s.jobs, JobName(RunReminder, u)) - 1
            && o.store.jobs == RemoveFirst(s.jobs, JobName(RunReminder, u))
            && exists first :: o.actions == [SendMessage(u, Reminder(first))])
  {
    var name := JobName(RunReminder, u);
    RemoveFirstDropsFired(s.jobs, name);
    var found := FirstNamed(s.jobs, name);
    if found.Some? {
      var j := found.value;
      JobNameInjective(j.callback, j.userId, RunReminder, u);
      assert Step(cfg, ai, s, u, ReminderFired).actions == [SendMessage(u, Reminder(j.data.value))];
    }
  }

  /** In a valid store, a pending reminder greets the user by the first name recorded at
      onboarding. */
  lemma ReminderGreetsByName(cfg: Config, ai: AiRequest -> string, s: Store, u: UserId)
    requires Valid(cfg, s) && Count(s.jobs, JobName(RunReminder, u)) > 0
    ensures u in s.users && s.users[u].firstName.Some?
    ensures Step(cfg, ai, s, u, ReminderFired).actions == [SendMessage(u, Reminder(s.users[u].firstName.value))]
  {
    var name := JobName(RunReminder, u);
    var j := FirstNamed(s.jobs, name).value;
    JobNameInjective(j.callback, j.userId, RunReminder, u);
    assert Step(cfg, ai, s, u, ReminderFired).actions == [SendMessage(u, Reminder(j.data.value))];
  }

  /** The expiration callback is guarded: it sets `expired` exactly when the user is known and
      still `awaiting_screenshot`, and is a no-op in every other state. It touches nothing
      else. */
  lemma ExpirationIsGuarded(s: Store, j: Job)
    ensures var o := ExpirationJob(s, j);
      var u := j.userId;
      && PhaseOf(o.store, u) == (if PhaseOf(s, u) == AwaitingScreenshot then Expired else PhaseOf(s, u))
      && RecordOf(o.store, u).firstName == RecordOf(s, u).firstName
      && RecordOf(o.store, u).assignedLink == RecordOf(s, u).assignedLink
      && (forall v :: v != u ==> RecordOf(o.store, v) == RecordOf(s, v))
      && o.store.users.Keys == s.users.Keys
      && o.store.cursor == s.cursor
      && o.store.jobs == s.jobs
      && o.actions == []
  {
  }

  // ---------------------------------------------------------------------------------------
  // Absorbing states over whole runs

  /** An inbound message writes at most the sender's own data. */
  lemma InboundTouchesOnlySender(cfg: Config, ai: AiRequest -> string, s: Store, v: UserId, name: string, body: Body, w: UserId)
    requires w != v
    ensures RecordOf(Step(cfg, ai, s, v, Inbound(name, body)).store, w) == RecordOf(s, w)
  {
    var o := Step(cfg, ai, s, v, Inbound(name, body));
    assert o == Dispatch(cfg, ai, s, v, name, body);
    if PhaseOf(s, v) == NewUser {
      assert o == HandleNewUser(cfg, s, v, name);
    } else if PhaseOf(s, v) == AwaitingScreenshot && body.Photo? {
      assert o == HandlePhoto(cfg, s, v);
    } else {
      assert o.store == s;
    }
  }

  /** What one event may change: a message writes at most its sender's data; only a first
      message adds a user, moves the cursor or adds jobs; a timer adds no user. */
  lemma StepFootprint(cfg: Config, ai: AiRequest -> string, s: Store, u: UserId, e: Event)
    ensures var t := Step(cfg, ai, s, u, e).store;
      && (e.Inbound? ==> forall w :: w != u ==> RecordOf(t, w) == RecordOf(s, w))
      && t.users.Keys <= s.users.Keys + {u}
      && (t.users.Keys != s.users.Keys ==> e.Inbound? && PhaseOf(s, u) == NewUser)
      && (t.cursor != s.cursor ==> e.Inbound? && PhaseOf(s, u) == NewUser)
      && (|t.jobs| > |s.jobs| ==> e.Inbound? && PhaseOf(s, u) == NewUser)
  {
    match e
    case Inbound(name, body) =>
      forall w | w != u
        ensures RecordOf(Step(cfg, ai, s, u, e).store, w) == RecordOf(s, w)
      {
        InboundTouchesOnlySender(cfg, ai, s, u, name, body, w);
      }
      DispatchFootprint(cfg, ai, s, u, name, body);
    case ReminderFired =>
      FireFootprint(s, JobName(RunReminder, u));
    case ExpirationFired =>
      FireFootprint(s, JobName(RunExpiration, u));
  }

  /** Outside `new_user`, an inbound message keeps the set of users and the cursor and never
      lengthens the queue; in `new_user` it adds at most the sender. */
  lemma DispatchFootprint(cfg: Config, ai: AiRequest -> string, s: Store, u: UserId, name: string, body: Body)
    ensures var t := Dispatch(cfg, ai, s, u, name, body).store;
      && t.users.Keys <= s.users.Keys + {u}
      && (PhaseOf(s, u) != NewUser ==>
            t.users.Keys == s.users.Keys && t.cursor == s.cursor && |t.jobs| <= |s.jobs|)
  {
    var phase := PhaseOf(s, u);
    if phase == NewUser {
      var t := HandleNewUser(cfg, s, u, name).store;
      assert t.users.Keys <= s.users.Keys + {u};
    } else if phase == AwaitingScreenshot && body.Photo? {
      PhotoFootprint(cfg, s, u);
    } else {
      assert Dispatch(cfg, ai, s, u, name, body).store == s;
    }
  }

  /** A photo from a user in `awaiting_screenshot` keeps the set of users and the cursor and only
      shortens the queue. */
  lemma PhotoFootprint(cfg: Config, s: Store, u: UserId)
    requires PhaseOf(s, u) == AwaitingScreenshot
    ensures var t := HandlePhoto(cfg, s, u).store;
      t.users.Keys == s.users.Keys && t.cursor == s.cursor && |t.jobs| <= |s.jobs|
  {
    assert u in s.users;
  }

  /** A timer keeps the set of users and the cursor and never lengthens the queue. */
  lemma FireFootprint(s: Store, name: string)
    ensures var t := Fire(s, name).store;
      t.users.Keys == s.users.Keys && t.cursor == s.cursor && |t.jobs| <= |s.jobs|
  {
    match FirstNamed(s.jobs, name)
    case None =>
    case Some(j) =>
      var s' := s.(jobs := RemoveFirst(s.jobs, name));
      if j.callback.RunExpiration? {
        assert Fire(s, name) == ExpirationJob(s', j);
      }
  }

  /** Once a user is in `awaiting_verification` or `expired`, no event of any user, inbound or
      timer, changes that user's state. */
  lemma TerminalStateIsKept(cfg: Config, ai: AiRequest -> string, s: Store, u: UserId, v: UserId, e: Event)
    requires PhaseOf(s, u) == AwaitingVerification || PhaseOf(s, u) == Expired
    ensures PhaseOf(Step(cfg, ai, s, v, e).store, u) == PhaseOf(s, u)
  {
    match e
    case Inbound(name, body) =>
      if v != u {
        InboundTouchesOnlySender(cfg, ai, s, v, name, body, u);
      } else {
        TerminalStatesIgnoreMessages(cfg, ai, s, u, name, body);
      }
    case ReminderFired =>
      assert Step(cfg, ai, s, v, e) == Fire(s, JobName(RunReminder, v));
      FireKeepsTerminalState(s, JobName(RunReminder, v), u);
    case ExpirationFired =>
      assert Step(cfg, ai, s, v, e) == Fire(s, JobName(RunExpiration, v));
      FireKeepsTerminalState(s, JobName(RunExpiration, v), u);
  }

  /** No timer moves a user out of `awaiting_verification` or `expired`. */
  lemma FireKeepsTerminalState(s: Store, name: string, u: UserId)
    requires PhaseOf(s, u) == AwaitingVerification || PhaseOf(s, u) == Expired
    ensures PhaseOf(Fire(s, name).store, u) == PhaseOf(s, u)
  {
    var found := FirstNamed(s.jobs, name);
    if found.Some? {
      var s' := s.(jobs := RemoveFirst(s.jobs, name));
      assert RecordOf(s', u) == RecordOf(s, u);
      if found.value.callback == RunExpiration {
        assert Fire(s, name) == ExpirationJob(s', found.value);
        ExpirationIsGuarded(s', found.value);
      } else {
        assert Fire(s, name) == ReminderJob(s', found.value);
      }
    }
  }

  /** ... and so after any sequence of events. */
  lemma {:induction false} TerminalStateIsKeptByRuns(cfg: Config, ai: AiRequest -> string, s: Store, u: UserId, inputs: seq<Input>)
    requires PhaseOf(s, u) == AwaitingVerification || PhaseOf(s, u) == Expired
    ensures PhaseOf(Run(cfg, ai, s, inputs).store, u) == PhaseOf(s, u)
    decreases |inputs|
  {
    if |inputs| > 0 {
      var first := Step(cfg, ai, s, inputs[0].user, inputs[0].event);
      TerminalStateIsKept(cfg, ai, s, u, inputs[0].user, inputs[0].event);
      TerminalStateIsKeptByRuns(cfg, ai, first.store, u, inputs[1..]);
    }
  }

  // ---------------------------------------------------------------------------------------
  // The invariant

  /** The empty store is valid. */
  lemma EmptyStoreIsValid(cfg: Config)
    ensures Valid(cfg, EmptyStore)
  {
  }

  /** A stored user has left `new_user`. */
  lemma StoredUserIsNotNew(cfg: Config, s: Store, u: UserId)
    requires RecordsWellFormed(cfg, s)
    ensures PhaseOf(s, u) == NewUser <==> u !in s.users
    ensures u in s.users ==> PhaseOf(s, u) != NewUser && !PhaseOf(s, u).Unrecognised?
  {
  }

  /** No job is named after a user the store does not know. */
  lemma {:induction false} NoJobsOfUnknownUser(s: Store, u: UserId, c: Callback)
    requires JobsWellFormed(s) && u !in s.users
    ensures Count(s.jobs, JobName(c, u)) == 0
  {
    if Count(s.jobs, JobName(c, u)) > 0 {
      var i :| 0 <= i < |s.jobs| && s.jobs[i].name == JobName(c, u);
      var j := s.jobs[i];
      assert j in s.jobs;
      JobNameInjective(j.callback, j.userId, c, u);
    }
  }

  /** Counts under another name are unaffected by the two jobs scheduled for `u`. */
  lemma CountAfterScheduling(js: seq<Job>, u: UserId, name: string, c: Callback, v: UserId)
    ensures Count(js + [ReminderJobFor(u, name), ExpirationJobFor(u)], JobName(c, v))
      == Count(js, JobName(c, v)) + (if v == u then 1 else 0)
  {
    CountAppend(js, [ReminderJobFor(u, name), ExpirationJobFor(u)], JobName(c, v));
    JobNameInjective(RunReminder, u, c, v);
    JobNameInjective(RunExpiration, u, c, v);
    assert [ReminderJobFor(u, name), ExpirationJobFor(u)][1..] == [ExpirationJobFor(u)];
  }

  /** The store `handle_new_user` leaves behind is valid. */
  lemma OnboardedStoreIsValid(cfg: Config, s: Store, u: UserId, name: string, link: string, cursor: Option<int>)
    requires Valid(cfg, s) && u !in s.users
    requires link in cfg.links && LinkAllocator.CursorInRange(cfg.links, cursor)
    ensures Valid(cfg, Store(s.users[u := UserData(Some(AWAITING_SCREENSHOT), Some(name), Some(link))],
                             cursor, s.jobs + [ReminderJobFor(u, name), ExpirationJobFor(u)]))
  {
    var t := Store(s.users[u := UserData(Some(AWAITING_SCREENSHOT), Some(name), Some(link))],
                   cursor, s.jobs + [ReminderJobFor(u, name), ExpirationJobFor(u)]);
    assert RecordsWellFormed(cfg, t);
    OnboardedJobsWellFormed(s, t, u, name);
    OnboardedTimers(s, t, u, name);
  }

  lemma OnboardedJobsWellFormed(s: Store, t: Store, u: UserId, name: string)
    requires JobsWellFormed(s) && u !in s.users
    requires u in t.users && t.users == s.users[u := t.users[u]] && t.users[u].firstName == Some(name)
    requires t.jobs == s.jobs + [ReminderJobFor(u, name), ExpirationJobFor(u)]
    ensures JobsWellFormed(t)
  {
    forall j | j in t.jobs
      ensures j.userId in t.users
      ensures j.callback == RunReminder ==> j.data.Some? && j.data == t.users[j.userId].firstName
    {
      if j !in s.jobs {
        assert j == ReminderJobFor(u, name) || j == ExpirationJobFor(u);
      } else {
        assert j.userId != u;
      }
    }
  }

  lemma OnboardedTimers(s: Store, t: Store, u: UserId, name: string)
    requires JobsWellFormed(s) && TimersMatchState(s) && u !in s.users
    requires u in t.users && t.users == s.users[u := t.users[u]] && t.users[u].state == Some(AWAITING_SCREENSHOT)
    requires t.jobs == s.jobs + [ReminderJobFor(u, name), ExpirationJobFor(u)]
    ensures TimersMatchState(t)
  {
    NoJobsOfUnknownUser(s, u, RunReminder);
    NoJobsOfUnknownUser(s, u, RunExpiration);
    forall v | v in t.users
      ensures Count(t.jobs, JobName(RunExpiration, v)) == (if t.users[v].state == Some(AWAITING_SCREENSHOT) then 1 else 0)
      ensures Count(t.jobs, JobName(RunReminder, v)) <= (if t.users[v].state == Some(AWAITING_VERIFICATION) then 0 else 1)
    {
      CountAfterScheduling(s.jobs, u, name, RunExpiration, v);
      CountAfterScheduling(s.jobs, u, name, RunReminder, v);
    }
  }

  lemma NewUserPreservesValid(cfg: Config, ai: AiRequest -> string, s: Store, u: UserId, name: string, body: Body)
    requires |cfg.links| > 0 && Valid(cfg, s) && PhaseOf(s, u) == NewUser
    ensures Valid(cfg, Step(cfg, ai, s, u, Inbound(name, body)).store)
  {
    LinkAllocator.AllocateInRange(cfg.links, s.cursor);
    StoredUserIsNotNew(cfg, s, u);
    var a := LinkAllocator.Allocate(cfg.links, s.cursor);
    var link := a.link.value;
    assert Step(cfg, ai, s, u, Inbound(name, body)) == HandleNewUser(cfg, s, u, name);
    OnboardedStoreIsValid(cfg, s, u, name, link, a.cursor);
  }

  /** The store `handle_photo` leaves behind is valid. */
  lemma VerifiedStoreIsValid(cfg: Config, s: Store, u: UserId)
    requires Valid(cfg, s) && u in s.users && s.users[u].state == Some(AWAITING_SCREENSHOT)
    ensures Valid(cfg, s.(users := s.users[u := s.users[u].(state := Some(AWAITING_VERIFICATION))],
                          jobs := RemoveNamed(s.jobs, {JobName(RunReminder, u), JobName(RunExpiration, u)})))
  {
    var t := s.(users := s.users[u := s.users[u].(state := Some(AWAITING_VERIFICATION))],
                jobs := RemoveNamed(s.jobs, {JobName(RunReminder, u), JobName(RunExpiration, u)}));
    RecordsKeptByStateChange(cfg, s, t, u, AWAITING_VERIFICATION);
    SameFirstNames(s, t, u, AWAITING_VERIFICATION);
    JobsKeptByCancelling(s, t);
    VerifiedTimers(s, t, u);
  }

  /** Writing a user's state with one of the written names keeps the records well formed. */
  lemma RecordsKeptByStateChange(cfg: Config, s: Store, t: Store, u: UserId, state: string)
    requires RecordsWellFormed(cfg, s) && u in s.users && IsWrittenState(Some(state))
    requires t.users == s.users[u := s.users[u].(state := Some(state))]
    ensures RecordsWellFormed(cfg, t)
  {
  }

  /** Writing a user's state keeps every user's first name. */
  lemma SameFirstNames(s: Store, t: Store, u: UserId, state: string)
    requires u in s.users && t.users == s.users[u := s.users[u].(state := Some(state))]
    ensures t.users.Keys == s.users.Keys
    ensures forall v :: v in s.users ==> v in t.users && t.users[v].firstName == s.users[v].firstName
  {
  }

  /** Dropping jobs, with the same users and first names, keeps the jobs well formed. */
  lemma JobsKeptByCancelling(s: Store, t: Store)
    requires JobsWellFormed(s) && t.users.Keys == s.users.Keys
    requires forall v :: v in s.users ==> v in t.users && t.users[v].firstName == s.users[v].firstName
    requires forall j :: j in t.jobs ==> j in s.jobs
    ensures JobsWellFormed(t)
  {
  }

  lemma VerifiedTimers(s: Store, t: Store, u: UserId)
    requires TimersMatchState(s) && u in s.users
    requires u in t.users && t.users == s.users[u := t.users[u]] && t.users[u].state == Some(AWAITING_VERIFICATION)
    requires t.jobs == RemoveNamed(s.jobs, {JobName(RunReminder, u), JobName(RunExpiration, u)})
    ensures TimersMatchState(t)
  {
    forall v | v in t.users
      ensures Count(t.jobs, JobName(RunExpiration, v)) == (if t.users[v].state == Some(AWAITING_SCREENSHOT) then 1 else 0)
      ensures Count(t.jobs, JobName(RunReminder, v)) <= (if t.users[v].state == Some(AWAITING_VERIFICATION) then 0 else 1)
    {
      CountAfterCancelling(s.jobs, u, RunExpiration, v);
      CountAfterCancelling(s.jobs, u, RunReminder, v);
    }
  }

  /** Cancelling a user's two names removes exactly that user's jobs. */
  lemma CountAfterCancelling(js: seq<Job>, u: UserId, c: Callback, v: UserId)
    ensures Count(RemoveNamed(js, {JobName(RunReminder, u), JobName(RunExpiration, u)}), JobName(c, v))
      == if v == u then 0 else Count(js, JobName(c, v))
  {
    JobNameInjective(c, v, RunReminder, u);
    JobNameInjective(c, v, RunExpiration, u);
    var names := {JobName(RunReminder, u), JobName(RunExpiration, u)};
    assert JobName(c, v) in names <==> v == u;
  }

  lemma PhotoPreservesValid(cfg: Config, ai: AiRequest -> string, s: Store, u: UserId, name: string)
    requires Valid(cfg, s) && PhaseOf(s, u) == AwaitingScreenshot
    ensures Valid(cfg, Step(cfg, ai, s, u, Inbound(name, Photo)).store)
  {
    StoredUserIsNotNew(cfg, s, u);
    assert Step(cfg, ai, s, u, Inbound(name, Photo)) == HandlePhoto(cfg, s, u);
    VerifiedStoreIsValid(cfg, s, u);
  }

  lemma ReminderPreservesValid(cfg: Config, ai: AiRequest -> string, s: Store, u: UserId)
    requires Valid(cfg, s)
    ensures Valid(cfg, Step(cfg, ai, s, u, ReminderFired).store)
  {
    var name := JobName(RunReminder, u);
    var t := Step(cfg, ai, s, u, ReminderFired).store;
    if FirstNamed(s.jobs, name).Some? {
      var j := FirstNamed(s.jobs, name).value;
      JobNameInjective(j.callback, j.userId, RunReminder, u);
      assert t.jobs == RemoveFirst(s.jobs, name);
      forall v | v in t.users
        ensures Count(t.jobs, JobName(RunExpiration, v)) == Count(s.jobs, JobName(RunExpiration, v))
        ensures Count(t.jobs, JobName(RunReminder, v)) <= Count(s.jobs, JobName(RunReminder, v))
      {
        JobNameInjective(RunExpiration, v, RunReminder, u);
      }
    }
  }

  lemma ExpirationPreservesValid(cfg: Config, ai: AiRequest -> string, s: Store, u: UserId)
    requires Valid(cfg, s)
    ensures Valid(cfg, Step(cfg, ai, s, u, ExpirationFired).store)
  {
    var name := JobName(RunExpiration, u);
    if FirstNamed(s.jobs, name).Some? {
      var j := FirstNamed(s.jobs, name).value;
      JobNameInjective(j.callback, j.userId, RunExpiration, u);
      var s' := s.(jobs := RemoveFirst(s.jobs, name));
      assert Step(cfg, ai, s, u, ExpirationFired) == ExpirationJob(s', j);
      ExpiredStoreIsValid(cfg, s, u);
    }
  }

  /** The store an expiration that finds its job leaves behind is valid. */
  lemma ExpiredStoreIsValid(cfg: Config, s: Store, u: UserId)
    requires Valid(cfg, s) && Count(s.jobs, JobName(RunExpiration, u)) > 0
    ensures u in s.users
    ensures Valid(cfg, Store(s.users[u := s.users[u].(state := Some(EXPIRED))], s.cursor,
                             RemoveFirst(s.jobs, JobName(RunExpiration, u))))
  {
    if u !in s.users {
      NoJobsOfUnknownUser(s, u, RunExpiration);
    }
    var t := Store(s.users[u := s.users[u].(state := Some(EXPIRED))], s.cursor,
                   RemoveFirst(s.jobs, JobName(RunExpiration, u)));
    RecordsKeptByStateChange(cfg, s, t, u, EXPIRED);
    SameFirstNames(s, t, u, EXPIRED);
    JobsKeptByCancelling(s, t);
    ExpiredTimers(s, t, u);
  }

  lemma ExpiredTimers(s: Store, t: Store, u: UserId)
    requires TimersMatchState(s) && u in s.users && Count(s.jobs, JobName(RunExpiration, u)) > 0
    requires u in t.users && t.users == s.users[u := t.users[u]] && t.users[u].state == Some(EXPIRED)
    requires t.jobs == RemoveFirst(s.jobs, JobName(RunExpiration, u))
    ensures TimersMatchState(t)
  {
    forall v | v in t.users
      ensures Count(t.jobs, JobName(RunExpiration, v)) == (if t.users[v].state == Some(AWAITING_SCREENSHOT) then 1 else 0)
      ensures Count(t.jobs, JobName(RunReminder, v)) <= (if t.users[v].state == Some(AWAITING_VERIFICATION) then 0 else 1)
    {
      JobNameInjective(RunExpiration, v, RunExpiration, u);
      JobNameInjective(RunReminder, v, RunExpiration, u);
    }
  }

  /** Every event keeps the invariant: states are only the written ones, links come from the
      list, the cursor stays in range, and timers are pending exactly as the state says. */
  lemma StepPreservesValid(cfg: Config, ai: AiRequest -> string, s: Store, u: UserId, e: Event)
    requires |cfg.links| > 0 && Valid(cfg, s)
    ensures Valid(cfg, Step(cfg, ai, s, u, e).store)
  {
    StoredUserIsNotNew(cfg, s, u);
    match e
    case Inbound(name, body) =>
      if PhaseOf(s, u) == NewUser {
        NewUserPreservesValid(cfg, ai, s, u, name, body);
      } else if PhaseOf(s, u) == AwaitingScreenshot && body.Photo? {
        PhotoPreservesValid(cfg, ai, s, u, name);
      }
    case ReminderFired =>
      ReminderPreservesValid(cfg, ai, s, u);
    case ExpirationFired =>
      ExpirationPreservesValid(cfg, ai, s, u);
  }

  lemma {:induction false} RunPreservesValid(cfg: Config, ai: AiRequest -> string, s: Store, inputs: seq<Input>)
    requires |cfg.links| > 0 && Valid(cfg, s)
    ensures Valid(cfg, Run(cfg, ai, s, inputs).store)
    decreases |inputs|
  {
    if |inputs| > 0 {
      StepPreservesValid(cfg, ai, s, inputs[0].user, inputs[0].event);
      RunPreservesValid(cfg, ai, Step(cfg, ai, s, inputs[0].user, inputs[0].event).store, inputs[1..]);
    }
  }

  /** In a valid store the timers mirror the state: a user awaiting the screenshot has exactly
      one expiration pending and every other user none; no user has more than one reminder
      pending, and a user awaiting verification has none. */
  lemma ValidTimers(cfg: Config, s: Store, u: UserId)
    requires Valid(cfg, s)
    ensures Count(s.jobs, JobName(RunExpiration, u)) == if PhaseOf(s, u) == AwaitingScreenshot then 1 else 0
    ensures Count(s.jobs, JobName(RunReminder, u)) <= 1
    ensures PhaseOf(s, u) == AwaitingVerification ==>
      Count(s.jobs, JobName(RunReminder, u)) == 0 && Count(s.jobs, JobName(RunExpiration, u)) == 0
  {
    if u !in s.users {
      NoJobsOfUnknownUser(s, u, RunExpiration);
      NoJobsOfUnknownUser(s, u, RunReminder);
    }
  }

  /** In a valid store a first message always succeeds: exactly one reminder and one expiration
      are then pending for the user. */
  lemma OnboardingArmsExactlyOneOfEach(cfg: Config, ai: AiRequest -> string, s: Store, u: UserId, name: string, body: Body)
    requires |cfg.links| > 0 && Valid(cfg, s) && PhaseOf(s, u) == NewUser
    ensures var t := Step(cfg, ai, s, u, Inbound(name, body)).store;
      && PhaseOf(t, u) == AwaitingScreenshot
      && Count(t.jobs, JobName(RunReminder, u)) == 1
      && Count(t.jobs, JobName(RunExpiration, u)) == 1
  {
    StoredUserIsNotNew(cfg, s, u);
    NoJobsOfUnknownUser(s, u, RunReminder);
    NoJobsOfUnknownUser(s, u, RunExpiration);
    LinkAllocator.AllocateInRange(cfg.links, s.cursor);
    CountAfterScheduling(s.jobs, u, name, RunReminder, u);
    CountAfterScheduling(s.jobs, u, name, RunExpiration, u);
  }

  /** A stale expiration is harmless: in a valid store, expiration for a user who is no longer
      awaiting the screenshot changes nothing at all. */
  lemma StaleExpirationIsNoOp(cfg: Config, ai: AiRequest -> string, s: Store, u: UserId)
    requires Valid(cfg, s) && PhaseOf(s, u) != AwaitingScreenshot
    ensures Step(cfg, ai, s, u, ExpirationFired) == Outcome(s, [])
  {
    ValidTimers(cfg, s, u);
    var name := JobName(RunExpiration, u);
    assert Step(cfg, ai, s, u, ExpirationFired) == Fire(s, name);
    assert FirstNamed(s.jobs, name).None?;
  }

  /** The expiry edge: in a valid store, the expiration timer of a user awaiting the screenshot
      moves the user to `expired`, keeps name and link, leaves every other user and the cursor
      alone, takes that timer off the queue, and sends nothing. */
  lemma ExpirationExpires(cfg: Config, ai: AiRequest -> string, s: Store, u: UserId)
    requires Valid(cfg, s) && PhaseOf(s, u) == AwaitingScreenshot
    ensures var o := Step(cfg, ai, s, u, ExpirationFired);
      && PhaseOf(o.store, u) == Expired
      && RecordOf(o.store, u).firstName == RecordOf(s, u).firstName
      && RecordOf(o.store, u).assignedLink == RecordOf(s, u).assignedLink
      && (forall v :: v != u ==> RecordOf(o.store, v) == RecordOf(s, v))
      && o.store.cursor == s.cursor
      && Count(o.store.jobs, JobName(RunExpiration, u)) == 0
      && o.store.jobs == RemoveFirst(s.jobs, JobName(RunExpiration, u))
      && o.actions == []
  {
    ValidTimers(cfg, s, u);
    FiredExpirationIsTheUsers(s, u);
    assert Step(cfg, ai, s, u, ExpirationFired) == Fire(s, JobName(RunExpiration, u));
    ExpiryEdge(s, u);
  }

  /** The expiry edge on the queue: firing a user's own, only pending expiration. */
  lemma ExpiryEdge(s: Store, u: UserId)
    requires PhaseOf(s, u) == AwaitingScreenshot
    requires Count(s.jobs, JobName(RunExpiration, u)) == 1
    requires FirstNamed(s.jobs, JobName(RunExpiration, u)).Some?
    requires var j := FirstNamed(s.jobs, JobName(RunExpiration, u)).value;
      j.callback == RunExpiration && j.userId == u
    ensures var o := Fire(s, JobName(RunExpiration, u));
      && PhaseOf(o.store, u) == Expired
      && RecordOf(o.store, u).firstName == RecordOf(s, u).firstName
      && RecordOf(o.store, u).assignedLink == RecordOf(s, u).assignedLink
      && (forall v :: v != u ==> RecordOf(o.store, v) == RecordOf(s, v))
      && o.store.cursor == s.cursor
      && Count(o.store.jobs, JobName(RunExpiration, u)) == 0
      && o.store.jobs == RemoveFirst(s.jobs, JobName(RunExpiration, u))
      && o.actions == []
  {
    var name := JobName(RunExpiration, u);
    var j := FirstNamed(s.jobs, name).value;
    var s' := s.(jobs := RemoveFirst(s.jobs, name));
    assert Fire(s, name) == ExpirationJob(s', j);
    assert RecordOf(s', u) == RecordOf(s, u);
    ExpirationIsGuarded(s', j);
  }

  /** With well-formed jobs, the job fired under a user's expiration name is that user's
      expiration. */
  lemma FiredExpirationIsTheUsers(s: Store, u: UserId)
    requires JobsWellFormed(s) && Count(s.jobs, JobName(RunExpiration, u)) > 0
    ensures FirstNamed(s.jobs, JobName(RunExpiration, u)).Some?
    ensures var j := FirstNamed(s.jobs, JobName(RunExpiration, u)).value;
      j.callback == RunExpiration && j.userId == u
  {
    var j := FirstNamed(s.jobs, JobName(RunExpiration, u)).value;
    JobNameInjective(j.callback, j.userId, RunExpiration, u);
  }

  // ---------------------------------------------------------------------------------------
  // A complete onboarding

  lemma RunCons(cfg: Config, ai: AiRequest -> string, s: Store, i: Input, rest: seq<Input>)
    ensures var first := Step(cfg, ai, s, i.user, i.event);
      var after := Run(cfg, ai, first.store, rest);
      Run(cfg, ai, s, [i] + rest) == Outcome(after.store, first.actions + after.actions)
  {
    assert ([i] + rest)[0] == i && ([i] + rest)[1..] == rest;
  }

  /** With no job pending, timers firing change nothing. */
  lemma TimersOnEmptyQueue(cfg: Config, ai: AiRequest -> string, s: Store, u: UserId)
    requires s.jobs == []
    ensures Run(cfg, ai, s, [Input(u, ReminderFired), Input(u, ExpirationFired)]) == Outcome(s, [])
  {
    RunCons(cfg, ai, s, Input(u, ReminderFired), [Input(u, ExpirationFired)]);
    RunCons(cfg, ai, s, Input(u, ExpirationFired), []);
    assert [Input(u, ReminderFired), Input(u, ExpirationFired)]
      == [Input(u, ReminderFired)] + [Input(u, ExpirationFired)];
    assert [Input(u, ExpirationFired)] == [Input(u, ExpirationFired)] + [];
  }

  /** The first message and the photo of the scenario below. */
  lemma ScenarioMessages(ai: AiRequest -> string)
    ensures var cfg := Config(TestLinks, true);
      var s1 := Step(cfg, ai, EmptyStore, 42, Inbound("Ada", Text("hi")));
      var s2 := Step(cfg, ai, s1.store, 42, Inbound("Ada", Photo));
      && PhaseOf(s2.store, 42) == AwaitingVerification
      && RecordOf(s2.store, 42).assignedLink == Some(TestLinks[0])
      && s2.store.cursor == Some(1)
      && s2.store.jobs == []
      && s1.actions[0] == Reply(Welcome("Ada", TestLinks[0]))
      && NotifyAdmin(42) in s2.actions
  {
    var cfg := Config(TestLinks, true);
    var s1 := Step(cfg, ai, EmptyStore, 42, Inbound("Ada", Text("hi")));
    NewUserIsOnboarded(cfg, ai, EmptyStore, 42, "Ada", Text("hi"));
    var s2 := Step(cfg, ai, s1.store, 42, Inbound("Ada", Photo));
    PhotoAdvancesToVerification(cfg, ai, s1.store, 42, "Ada");
  }

  /** From an empty store, a user's first message hands out the first link and arms both timers;
      a photo then moves the user to `awaiting_verification` with no timer left, and the timers
      firing afterwards change nothing. */
  lemma OnboardingScenario(ai: AiRequest -> string)
    ensures var cfg := Config(TestLinks, true);
      var o := Run(cfg, ai, EmptyStore, [Input(42, Inbound("Ada", Text("hi"))), Input(42, Inbound("Ada", Photo)),
                                         Input(42, ReminderFired), Input(42, ExpirationFired)]);
      && PhaseOf(o.store, 42) == AwaitingVerification
      && RecordOf(o.store, 42).assignedLink == Some(TestLinks[0])
      && o.store.cursor == Some(1)
      && o.store.jobs == []
      && o.actions[0] == Reply(Welcome("Ada", TestLinks[0]))
      && NotifyAdmin(42) in o.actions
  {
    var cfg := Config(TestLinks, true);
    var i0 := Input(42, Inbound("Ada", Text("hi")));
    var i1 := Input(42, Inbound("Ada", Photo));
    var timers := [Input(42, ReminderFired), Input(42, ExpirationFired)];
    var s1 := Step(cfg, ai, EmptyStore, 42, i0.event);
    var s2 := Step(cfg, ai, s1.store, 42, i1.event);
    ScenarioMessages(ai);
    TimersOnEmptyQueue(cfg, ai, s2.store, 42);
    RunCons(cfg, ai, s1.store, i1, timers);
    RunCons(cfg, ai, EmptyStore, i0, [i1] + timers);
    assert [i0, i1, Input(42, ReminderFired), Input(42, ExpirationFired)] == [i0] + ([i1] + timers);
  }
}

=== FILE: wrappers.dfy ===
/** Optional values, standing in for Python's `None` and for dictionary keys that are absent. */
module Wrappers {

  datatype Option<+T> = None | Some(value: T) {

    /** The value, or `default` when absent: Python's `dict.get(key, default)`. */
    function GetOr(default: T): T {
      match this
      case Some(v) => v
      case None => default
    }
  }
}
